=== FILE: README.md ===
# Boot sequencer and IDLE task of the Kineis STM32WL firmware, in Dafny

This project models the two pieces of logic in `Core/Src/main.c` that decide how the
device wakes up and when it goes back to sleep, and proves what they guarantee.

**The boot sequencer (`main`).** It reads the persisted low-power mode from a backup
register. A code deeper than the build supports is rejected: with `USE_FULL_ASSERT`
the boot halts, otherwise the code is forced to NONE. The boot then re-initialises
what the wake path lost (retention RAM2, PWR flags, TX timers) and initialises the
LPM client. Next it creates the four Kineis queues and registers the MAC, APP and
IDLE tasks, checking each status when assertions are on. After a STANDBY or SHUTDOWN
wake it replays the RTC wake-up handler. Finally it commits NONE and starts the
scheduler.

The boot is the pure function `Boot.BootSequence`. Its inputs are the build options,
the nRST flag, the raw mode code and the statuses the queue and task calls return.
Its result is the outcome, the persisted mode, and the ordered trace of abstract
actions, split into four phases. `Boot.BootSequence` runs the corrected setup block
(see "Findings"). `Boot.BootAsWritten` is the same boot around the setup block as
main.c writes it, under the same single read of the persisted mode. The two are equal under `USE_FULL_ASSERT` and differ only in the
setup phase otherwise.

**The IDLE task (`IDLE_task`).** In a bare-metal build it saves PRIMASK and masks
interrupts. It then re-checks the queues (and, in the GUI build, the AT command
manager). It either gives up or calls `LPM_enter`, and in both cases it re-enables
interrupts only if they were enabled on entry. The GUI build that allows STANDBY or
SHUTDOWN first waits for the wake-up pin to go low. While waiting it returns as soon
as work appears, and once the pin is low it waits another 500 ms. Builds on another
scheduler call `LPM_enter` without masking or checking the queues. In the GUI build
that allows STANDBY or SHUTDOWN they first wait for the pin to go low, without
looking at the queues (main.c:206-207).

One pass of the IDLE task is the pure function `Idle.IdlePass`. Interrupts are not
concurrent in the model. The rest of the system is a sequence of ticks. A tick is
consumed at each of these points:

- each iteration of the pin loop, before the pin is read; in the bare-metal build
  the read and the work check that follows it share that one point;
- in the bare-metal builds, the 500 ms delay (GUI build with deep modes only,
  main.c:184), the read of PRIMASK, the masked window, and the call of `LPM_enter`.

The call of `LPM_enter` in builds on another scheduler consumes no tick. A tick
sets the pin level and may post an event or an AT command. While the mask is set
the tick is held and takes effect when the mask is lifted. `LPM_enter` itself is
assumed to leave the mask as it found it (see "Left out").

**Modules.**
- `Lpm` holds the mode encoding and the build options.
- `Kns` holds the status codes, queue channels and task slots.
- `Boot` and `BootProperties` hold the boot sequencer and its properties.
- `Idle` and `IdleProperties` hold the IDLE task and its properties.

**Mode codes.** The numeric values of the `LOW_POWER_MODE_*` codes live outside this
model. main.c compares them with `>` (main.c:291, 298) and tests them as bits of
`lpm_config.allowedLPMbitmap` (main.c:174, 206), so they are assumed strictly
increasing. The bitmap's type is declared outside main.c; its width is assumed to
be 32 bits, and the codes are assumed to fit in it.

**Behaviour of main.c worth knowing.**
- Queue and task failures at boot (main.c:397-419): every status is checked only
  through `assert_param`, so a failed call stops the boot only under
  `USE_FULL_ASSERT`. Without it, under the usual STM32Cube definition, the calls
  themselves are dropped with the check. The comments at main.c:292-294 and
  main.c:301 plan for exactly such a production build. See "Findings".
- The wake-pin wait (main.c:177-182) is a loop inside one pass of the IDLE task,
  not a check repeated once per pass. In the model a pass whose pin stays high
  with nothing else happening ends as `Polling`: the loop spins.
- The range check (main.c:290-304) rewrites only codes above the deepest
  supported mode. A smaller code that names no mode is kept. It takes the default
  (cold-start) branch of the switch at main.c:334-360, and the final commit of NONE
  at main.c:447 overwrites it.

## Model

| member | source | states |
|---|---|---|
| Lpm.Deepest | Core/Src/main.c:290-304 | The deepest mode a build may persist is SHUTDOWN exactly when LPM_SHUTDOWN_ENABLED is set, and STANDBY otherwise. |
| Lpm.AllowsDeep | Core/Src/main.c:174 | The bitmap test for STANDBY or SHUTDOWN: an empty bitmap allows neither. |
| Boot.WakePathOf | Core/Src/main.c:334-348 | The branch each of the `switch (LPM_getMode())` statements takes (also main.c:422-438): each of SHUTDOWN, STANDBY, STOP and SLEEP selects its own case, and every other code, NONE included, selects the default (reset or power-off) case. |
| Boot.Normalise | Core/Src/main.c:290-304 | The range check keeps a code exactly when it is at or below the deepest supported mode. Any code it changes becomes NONE, and the result is always in range. |
| Boot.ReinitActions | Core/Src/main.c:334-360 | RAM2 init runs exactly on the SHUTDOWN and default branches. SB is cleared on STANDBY and default. STOP and STOP2 are cleared together, on STOP and default. Both TX timers are de-initialised only on the default branch. |
| Boot.ReplayActions | Core/Src/main.c:422-437 | The RTC wake-up handler is called, once, exactly on the SHUTDOWN and STANDBY branches. |
| Boot.RunSetup | Core/Src/main.c:397-419 | With USE_FULL_ASSERT this is the block as written: a stop happens only with checks on, at a call inside the block, after as many calls as its position. Without USE_FULL_ASSERT it is the corrected block, not the code as written: it always completes and makes one action per statement. |
| Boot.RunSetupCompletes | Core/Src/main.c:397-419 | For Boot.RunSetup (the block as written with assertions on, the corrected block without), the setup block completes exactly when assertions are off or every checked call returns OK. A completed block made every call in order. A stop names a call that failed. The block only creates queues, registers tasks and initialises the application. |
| Boot.RunSetupStopsAtFirstFailure | Core/Src/main.c:397-419 | A stopped setup block stopped at the first failing call: every earlier call returned OK, and the trace ends with the failing call. |
| Boot.SetupStepsOk | Core/Src/main.c:397-419 | The checks of the setup block pass exactly when all seven queue and task calls return KNS_STATUS_OK. |
| Boot.SetupBlock | Core/Src/main.c:397-419 | The corrected setup block of a build (with USE_FULL_ASSERT, the block as written) completes exactly when assertions are off or all seven calls succeed. It then creates the four queues and registers MAC, initialises the application, and registers APP and IDLE, in that order. |
| Boot.SetupBlockAsWritten | Core/Src/main.c:397-419 | The build's setup block as written completes exactly when assertions are off or all seven calls succeed. With assertions on, a completed block made the seven calls and the application init in source order. Without them its only action is the application's init. |
| Boot.RunSetupAsWritten | Core/Src/main.c:397-419 | With assertions on, the block as written behaves like the corrected one. Without them, its trace contains nothing but the application's init. |
| Boot.WakeActions | Core/Src/main.c:290-390 | A boot past the range check starts with a commit of NONE exactly when the code was out of range, never commits NONE otherwise, and ends this phase with LPM_init. |
| Boot.WakeKinds | Core/Src/main.c:290-390 | Before the setup block nothing is set up, replayed or started. The only re-initialisation is the one its wake path selects. |
| Boot.FinishActions | Core/Src/main.c:422-450 | The end of a successful boot is the optional replay, then the commit of NONE, then the start of the scheduler. The replay is present exactly after a SHUTDOWN or STANDBY wake. |
| Boot.BootSequence | Core/Src/main.c:249-450 | `main` with the corrected setup block. The boot halts at the range check exactly under USE_FULL_ASSERT with an out-of-range code. It halts in setup only under USE_FULL_ASSERT on a call that failed. It starts the scheduler exactly when its trace contains the start, and the persisted mode is then NONE. |
| Boot.BootAsWritten | Core/Src/main.c:249-450 | `main` as written, under the same single read of the mode, has the same outcome, persisted mode, reset, wake and finish phases as the corrected boot, and is that boot under USE_FULL_ASSERT. Without it the setup phase is only the application's init. |
| BootProperties.WakePathMatchesRaw | Core/Src/main.c:290-360 | The re-initialisation branch taken, in terms of the raw code. SHUTDOWN is taken only when the build supports it; the default branch covers everything not in range or naming no mode. |
| BootProperties.ResetFlagsClearedFirst | Core/Src/main.c:258-261 | The boot's first action is clearing the reset flags exactly when the nRST pin flag was set. |
| BootProperties.OutOfRangeModeIsForcedToNone | Core/Src/main.c:290-304 | Without USE_FULL_ASSERT, NONE is committed right after the reset-flag step exactly when the code is above the deepest supported mode. |
| BootProperties.OutOfRangeModeHaltsWithAssertions | Core/Src/main.c:290-304 | With USE_FULL_ASSERT an out-of-range code halts the boot with the code left in place, before any re-initialisation. |
| BootProperties.ReinitMembership | Core/Src/main.c:334-360 | A RAM2 init, PWR-flag clear or timer de-init appears in a boot exactly when the selected wake path's re-initialisation contains it. |
| BootProperties.Sram2InitExactlyOnShutdownOrCold | Core/Src/main.c:334-360 | RAM2 is re-initialised exactly on a cold start or a SHUTDOWN wake, never after SLEEP, STOP or STANDBY. |
| BootProperties.PwrFlagsPerWakePath | Core/Src/main.c:334-360 | SB is cleared exactly on cold or STANDBY, STOP and STOP2 exactly on cold or STOP. Both TX timers are de-initialised exactly on a cold start. |
| BootProperties.ShutdownBranchNeedsSupport | Core/Src/main.c:290-360 | Without LPM_SHUTDOWN_ENABLED the SHUTDOWN branch is unreachable: RAM2 is re-initialised exactly when the cold-start timer clean-up runs. |
| BootProperties.StartsIffChecksPass | Core/Src/main.c:290-419 | The scheduler starts exactly when assertions are off, or the code is in range and all seven calls succeed. |
| BootProperties.SetupInSourceOrder | Core/Src/main.c:397-419 | In the corrected boot, in a boot that starts, the setup actions of the whole trace are exactly the four queues, MAC, the application init, APP and IDLE, in that order and once each. |
| BootProperties.SchedulerStartsInModeNone | Core/Src/main.c:446-450 | In a boot that starts, the persisted mode is NONE, and the last two actions are the commit of NONE and the start. Nothing earlier starts the scheduler. |
| BootProperties.ReplayOnlyAfterDeepWake | Core/Src/main.c:422-437 | In a boot that starts, the RTC handler is replayed exactly when the code was STANDBY, or SHUTDOWN in a build that supports it. |
| BootProperties.ReplayRunsAfterSetup | Core/Src/main.c:419-450 | After a deep wake the replay is the third-last action, after every queue and task call and right before the commit of NONE and the start. |
| BootProperties.ShutdownWakeScenario | Core/Src/main.c:249-450 | A SHUTDOWN wake with every call OK starts the scheduler with NONE persisted. It re-initialises RAM2 and replays the RTC handler, but does not de-initialise the timers. |
| BootProperties.CorruptModeScenario | Core/Src/main.c:290-360 | Without USE_FULL_ASSERT a code above SHUTDOWN is forced to NONE and the boot runs as a cold start, without replay. |
| BootProperties.CompiledOutAssertSkipsSetup | Core/Src/main.c:397-419 | Without USE_FULL_ASSERT the setup block as written only initialises the application: no queue is created and no task registered. |
| BootProperties.AsWrittenBootSetsUpNothing | Core/Src/main.c:397-450 | Without USE_FULL_ASSERT, `main` as written starts the scheduler having created none of the four queues and registered none of the three tasks. The application's init is its only setup action. |
| BootProperties.UncheckedSetupStillRuns | Core/Src/main.c:397-419 | The corrected block, in the same build, creates all four queues and registers all three tasks, whatever status the calls return. |
| Idle.Unmask | Core/Src/main.c:192-195 | Re-enabling interrupts lets every held interrupt post its work. No work is lost or invented, and nothing stays held. |
| Idle.Restore | Core/Src/main.c:201-204 | The epilogue leaves the mask as it was saved and keeps all work. |
| Idle.PollPin | Core/Src/main.c:177-182 | The pin loop keeps the mask and ends in one of three ways: the pin read low; the loop saw work at a high reading (only when it checks for work); or it spins with the pin high and nothing left to happen. |
| Idle.PollPinKeepsWork | Core/Src/main.c:177-182 | The pin loop loses no queued, pending or held work, and keeps the mask state consistent. |
| Idle.PollPinLeavesSuffix | Core/Src/main.c:177-182 | The pin loop consumes interrupts from the front of what is to come. |
| Idle.PollPinHoldsWhileHigh | Core/Src/main.c:177-182 | While every reading of the pin is high, the loop never reports it low. |
| Idle.PollPinAccounts | Core/Src/main.c:177-182 | The pin loop consumes interrupts from the front, and ends with work exactly when it started with some or one of the interrupts it let run posted an event or an AT command. |
| Idle.Guarded | Core/Src/main.c:187-204 | The masked window exits with the entry mask, keeps the work present on entry and always decides: it aborts or sleeps. |
| Idle.GuardedAccounts | Core/Src/main.c:187-204 | The masked window ends with work exactly when it started with some or an interrupt posted some. That includes the one before PRIMASK is read, the one held inside the window, and the one that ends the sleep. The last two count as work once the mask is lifted; that the one ending the sleep stays held until then rests on the model's assumption that `LPM_enter` leaves the mask alone. |
| Idle.UnguardedAccounts | Core/Src/main.c:236-238 | The unguarded call consumes no interrupt and changes no work. |
| Idle.PinThenGuardedAccounts | Core/Src/main.c:174-204 | The pin loop, the 500 ms delay and the masked window together lose no work and invent none, counting every interrupt they let run. |
| Idle.PinThenUnguardedAccounts | Core/Src/main.c:206-210 | The GUI path on another scheduler loses no work and invents none, counting every interrupt the pin loop let run. |
| Idle.IdlePassAccounts | Core/Src/main.c:158-241 | In every build, one pass consumes interrupts only from the front. It ends with work exactly when it started with some or an interrupt it let run posted an event or an AT command. |
| Idle.Unguarded | Core/Src/main.c:236-238 | Without the bare-metal scheduler, LPM_enter is called and the state is left as found. |
| Idle.PinThenGuarded | Core/Src/main.c:174-204 | The bare-metal GUI path with deep modes allowed keeps the mask and the work present on entry, and only spins with nothing left to happen. |
| Idle.PinThenUnguarded | Core/Src/main.c:206-210 | The GUI path on another scheduler never aborts, and keeps the mask and the work present on entry. |
| Idle.IdlePass | Core/Src/main.c:158-241 | One pass of the IDLE task, for every build: it exits with the entry mask, keeps the work present on entry, and aborts only in a bare-metal build. Only the GUI build with STANDBY or SHUTDOWN allowed can spin. |
| IdleProperties.GuardedTrace | Core/Src/main.c:187-204 | The masked window saves PRIMASK as found and masks first. It restores the entry mask last, and calls LPM_enter only masked with no queued event (and no AT command when checked). It sleeps exactly when it calls LPM_enter. |
| IdleProperties.GuardedAbortsOnWork | Core/Src/main.c:191-197 | Work visible when the window opens always aborts the sleep. |
| IdleProperties.GuardedSeesEarlyInterrupt | Core/Src/main.c:187-197 | An event posted just before PRIMASK is read is seen by the re-check: the pass aborts with interrupts enabled and the event queued. |
| IdleProperties.GuardedWindow | Core/Src/main.c:187-204 | What an interrupt does inside the masked window cannot change the decision. An event it posts is queued once the mask is lifted. |
| IdleProperties.GuardedQuiet | Core/Src/main.c:187-204 | With nothing happening, the window sleeps exactly when no checked work is visible. |
| IdleProperties.DelayPrefix | Core/Src/main.c:183-187 | The 500 ms delay before the window adds no sleep and keeps the window's mask bracket. |
| IdleProperties.PinGuardedTrace | Core/Src/main.c:174-204 | The bare-metal GUI path with deep modes allowed has the same mask bracket and sleep guarantees as the window alone. |
| IdleProperties.PinUnguardedTrace | Core/Src/main.c:206-210 | The GUI path on another scheduler does nothing but call LPM_enter under the mask it found. |
| IdleProperties.PinGuardedAbortsOnWork | Core/Src/main.c:174-197 | With an event queued or an AT command pending on entry, the bare-metal GUI path never sleeps, whatever the pin does. |
| IdleProperties.PinGuardedQuiet | Core/Src/main.c:174-204 | With nothing happening, the bare-metal GUI path sleeps exactly when the pin is low and no work is visible. It spins exactly when the pin is high and no work is visible. |
| IdleProperties.PinLoopHoldsWhileHigh | Core/Src/main.c:174-182 | While the pin stays high neither GUI path enters low power. |
| IdleProperties.PinUnguardedQuiet | Core/Src/main.c:206-210 | With nothing happening, the GUI path on another scheduler sleeps exactly when the pin is low and spins exactly when it is high. |
| IdleProperties.BareMetalSleepIsGuarded | Core/Src/main.c:171-235 | Every bare-metal build brackets its decision between saving and restoring the entry mask. It calls LPM_enter only masked with no queued event (and, in the GUI build, no AT command), and enters LPM exactly when it calls LPM_enter. |
| IdleProperties.OtherSchedulerSleepIsUnguarded | Core/Src/main.c:205-238 | Builds on another scheduler never abort. All they do is call LPM_enter under the mask they found. |
| IdleProperties.VisibleWorkAtEntryBlocksSleep | Core/Src/main.c:187-229 | A bare-metal pass that starts with a queued event (or, in the GUI build, a pending AT command) aborts. |
| IdleProperties.InterruptBeforeCheckBlocksSleep | Core/Src/main.c:220-229 | In the bare-metal builds without the pin loop, an event posted before PRIMASK is read aborts the pass, and the event stays queued. |
| IdleProperties.MaskedWindowCannotChangeDecision | Core/Src/main.c:220-235 | In the bare-metal builds without the pin loop, an interrupt inside the masked window cannot change the outcome, and the event it posts is delivered. |
| IdleProperties.PinHighNeverSleeps | Core/Src/main.c:174-182 | In the GUI build with STANDBY or SHUTDOWN allowed, LPM is never entered while the pin stays high. |
| IdleProperties.WorkWhilePinHighReturnsAtOnce | Core/Src/main.c:177-182 | In that build, bare-metal, work seen at a high pin reading returns at once: no delay, no masking, one interrupt point consumed. |
| IdleProperties.QuietPassSleepsIffEligible | Core/Src/main.c:158-241 | With nothing happening during the pass, each build enters LPM exactly when it is eligible: the pin is low where it is polled, and no work is visible in a bare-metal build. It spins exactly when the pin is high and no work would end the loop. |
| IdleProperties.AtCommandInWindowScenario | Core/Src/main.c:174-204 | Pin low, a quiet delay, then an AT command inside the window: the IDLE task still sleeps, and the command is pending once interrupts are back on. |
| IdleProperties.UnguardedSleepsWithWorkScenario | Core/Src/main.c:205-210 | A build on another scheduler calls LPM_enter with interrupts enabled even with an event queued. |
| IdleProperties.WakeEventSurvivesScenario | Core/Src/main.c:220-235 | In the standalone bare-metal build, an event posted by the interrupt that ends the sleep is queued once interrupts are enabled again. |

## Left out

- Clock, GPIO and peripheral bring-up (`HAL_Init`, `SystemClock_Config`, `MX_*_Init`, `LPM_SystemClockConfig`, `GPIO_DisableAllToAnalogInput`, the RTC freeze under `DEBUG`, the wake-pin GPIO setup in the IDLE task): vendor calls with no decision logic.
- Logging and console output, including the second mode switch (main.c:362-387) and the firmware banner (main.c:438-443): output only, and they change nothing the model tracks.
- The queue set, the scheduler, the LPM controller and the AT command manager (`KNS_Q_*`, `KNS_OS_*`, `LPM_*`, `MGR_AT_CMD_isPendingAt`): their code is not part of this model. The statuses of the queue and task calls and what the IDLE task reads are inputs (`Replies`, the ticks), and their calls are trace actions. The persisted mode is the exception: it is read once, see the Boot.BootSequence line below.
- What `LPM_enter`, `Sram2_Init` and the RTC handler do to the hardware: each is one abstract action. A STANDBY or SHUTDOWN sleep really resets the core; the model lets every `LPM_enter` return.
- `HAL_Delay(500)` timing: the delay is one interrupt point.
- True concurrency: interrupts run only at fixed points between the IDLE task's statements.
- `Error_Handler` and `assert_failed`: a failed assertion is an outcome that ends the boot (halt under `DEBUG`, reset otherwise).
- The `#warning` for the GUI build with STANDBY or SHUTDOWN and the `#error` for both applications: compile-time only. The model's `App` has exactly one variant per build.
- The scheduler loop that calls the IDLE task over and over: the model covers one pass.
- FAULTMASK: the model has one mask flag for PRIMASK and FAULTMASK. It therefore assumes FAULTMASK equals PRIMASK when the IDLE task is entered. main.c sets FAULTMASK unconditionally (main.c:190, 222) but clears it only when the saved PRIMASK was 0 (main.c:192-195, 201-204, 224-227, 232-235). A pass entered with PRIMASK set and FAULTMASK clear therefore exits with FAULTMASK set. A pass entered with PRIMASK clear and FAULTMASK set exits with FAULTMASK clear. Neither case is modelled.
- Idle.Restore: "leaves the mask as it was saved" is about PRIMASK; with FAULTMASK different from PRIMASK on entry, main.c does not restore FAULTMASK (see the FAULTMASK line).
- Idle.Guarded: "exits with the entry mask" holds only under the assumption that FAULTMASK equals PRIMASK on entry (see the FAULTMASK line).
- IdleProperties.BareMetalSleepIsGuarded: the bracket restores the entry mask only under the same assumption about FAULTMASK.
- Boot.BootSequence: it runs the corrected setup block. Without USE_FULL_ASSERT its trace creates the four queues and registers the three tasks, which main.c as written does not do (see "Findings"). Boot.BootAsWritten and BootProperties.AsWrittenBootSetsUpNothing model the setup block as written.
- Boot.BootSequence: it reads the persisted mode once. The re-initialisation switch (main.c:334) and the replay switch (main.c:422) call `LPM_getMode()` again; the model reuses the range-checked code for both. This assumes `LPM_getMode` returns what `LPM_forceMode` wrote at main.c:295/302. It also assumes `LPM_init` (main.c:390), the application init (main.c:412/416) and the queue and task calls never write the persisted mode. Their code is not part of this model. BootProperties.ReplayOnlyAfterDeepWake and the re-initialisation lemmas rest on this assumption.
- Boot.BootAsWritten: it inherits the single read of the persisted mode described on the line above, because it is built by the same `BootAround`. It also rests on the usual STM32Cube expansion of `assert_param` to `((void)0U)` without USE_FULL_ASSERT; that header is not part of this model.
- Boot.SetupBlock: it is the corrected block. Without USE_FULL_ASSERT it creates the queues and registers the tasks that the block as written omits. Boot.SetupBlockAsWritten is the block as written.
- Boot.RunSetupCompletes: it is about Boot.RunSetup. Without checks that is the corrected block, so "every call is made" does not describe main.c as written. Boot.RunSetupAsWritten does.
- BootProperties.SetupInSourceOrder: it is stated about the corrected boot. In a build without USE_FULL_ASSERT, main.c as written makes none of those queue and task calls, as BootProperties.AsWrittenBootSetsUpNothing shows.
- Idle.Guarded: `LPM_enter` is assumed to leave PRIMASK and FAULTMASK as it found them, so after a sleep the entry mask is what the epilogue restores, and the interrupt that ends the sleep stays held until then. The comment at main.c:147-151 says that for SLEEP and STOP the mask is restored just before WFI, inside `LPM_enter`, whose code is not part of this model. With PRIMASK set on entry, the model ends a sleep still masked with that interrupt held; main.c may end it unmasked.
- Idle.PinThenGuarded: its sleep is that of Idle.Guarded, and "keeps the mask" after a sleep rests on the same assumption about `LPM_enter` (main.c:147-151).
- Idle.IdlePass: in the bare-metal builds, "exits with the entry mask" after a sleep rests on the same assumption about `LPM_enter` (main.c:147-151).
- Idle.PollPin: in the bare-metal GUI build, main.c reads the pin (main.c:177) and then checks for work (main.c:180), and an interrupt could run between the two. The model lets one tick run before the read and none between the read and the check.
- Idle.Unguarded: the call of `LPM_enter` in builds on another scheduler consumes no tick, so an interrupt during that sleep is not modelled; the pass ends with the ticks it found.
- Idle.PollPin: an empty tick sequence stands for "nothing more happens", so a loop that would spin for ever ends as `Spinning`. Its contract does not say how many ticks a loop that ends earlier uses.
- IdleProperties.MaskedWindowCannotChangeDecision: stated for the builds without the pin loop. In the bare-metal GUI build with deep modes the same window is `Idle.Guarded`, and IdleProperties.GuardedWindow covers it.
- IdleProperties.InterruptBeforeCheckBlocksSleep: stated for the builds without the pin loop, for the same reason. IdleProperties.GuardedSeesEarlyInterrupt covers the window itself.
- Lpm.AllowsDeep: its contract only says that an empty bitmap allows no deep mode. The exact bit test depends on the mode codes' values, which are not part of this model.

## Findings

| source | as written | input that shows it | evidently intended | confidence | as-written member | corrected member |
|---|---|---|---|---|---|---|
| Core/Src/main.c:397-419 | Every queue creation and task registration is written inside `assert_param(...)`. Under the usual STM32Cube definition, `assert_param(expr)` is `((void)0U)` when `USE_FULL_ASSERT` is not defined, so the calls are never made. | A build without `USE_FULL_ASSERT` (the production build the comment at main.c:292-294 plans for), any persisted mode: `main` as written starts the scheduler with no queue created and no task registered; its setup phase is only the application's init. | Make every call in every build and check its status only under `USE_FULL_ASSERT`: the call outside the assertion, its status inside. | medium, not executed; relies on the usual STM32Cube `assert_param` expansion, which is not part of this model | BootProperties.AsWrittenBootSetsUpNothing | BootProperties.SetupInSourceOrder |

=== FILE: boot.dfy ===
/** The boot sequencer of main.c (`main`): read the persisted power mode, reject a code
    deeper than the build supports, re-initialise what the wake path lost, create the
    queues and register MAC, APP and IDLE, replay the RTC wake-up interrupt after a deep wake,
    declare the device awake and start the scheduler. The effect of every hardware or
    library call is an abstract action; the boot is the ordered trace of those actions. */
module Boot {
  import opened Lpm
  import opened Kns

  datatype PwrFlag = SB | Stop | Stop2

  datatype Timer = TxTimeout | TxPeriod

  /** One externally visible step of the boot. */
  datatype Action =
    | ClearResetFlags               // the nRST pin flag was set: reset flags are cleared
    | ForceMode(mode: nat)          // LPM_forceMode: overwrite the persisted mode
    | Sram2Init                     // re-initialise the retention RAM2 sections
    | ClearPwrFlag(flag: PwrFlag)
    | DeinitTimer(timer: Timer)
    | LpmInit
    | CreateQ(channel: Channel)
    | AppInit(app: App)
    | RegisterTask(task: TaskId)
    | ReplayRtcWkup                 // call the RTC wake-up interrupt handler by hand
    | StartOS                       // KNS_OS_main: never returns

  /** The branch of the re-initialisation switch a persisted mode selects. */
  datatype WakePath = FromShutdown | FromStandby | FromStop | FromSleep | FromPowerOff

  /** A mode code that matches none of the four sleep modes (NONE or anything else)
      falls into the switch's default branch: start from reset or power off. */
  function WakePathOf(enc: ModeEncoding, mode: nat): (w: WakePath)
    requires enc.Valid()
    ensures w == FromShutdown <==> mode == enc.shutdown
    ensures w == FromStandby <==> mode == enc.standby
    ensures w == FromStop <==> mode == enc.stop
    ensures w == FromSleep <==> mode == enc.sleep
    ensures w == FromPowerOff <==>
      mode != enc.sleep && mode != enc.stop && mode != enc.standby && mode != enc.shutdown
  {
    if mode == enc.shutdown then FromShutdown
    else if mode == enc.standby then FromStandby
    else if mode == enc.stop then FromStop
    else if mode == enc.sleep then FromSleep
    else FromPowerOff
  }

  /** The persisted mode after the range check, in a build where the failed
      assertion does not stop the boot: a code above the deepest supported mode is
      forced back to NONE, any other code is kept. */
  function Normalise(enc: ModeEncoding, build: Build, raw: nat): (m: nat)
    requires enc.Valid()
    ensures m <= Deepest(enc, build)
    ensures m == raw <==> raw <= Deepest(enc, build)
    ensures m != raw ==> m == enc.none
  {
    if raw > Deepest(enc, build) then enc.none else raw
  }

  /** The mode-specific re-initialisation. */
  function ReinitActions(w: WakePath): (t: seq<Action>)
    ensures Sram2Init in t <==> w == FromShutdown || w == FromPowerOff
    ensures ClearPwrFlag(SB) in t <==> w == FromStandby || w == FromPowerOff
    ensures ClearPwrFlag(Stop) in t <==> ClearPwrFlag(Stop2) in t
    ensures ClearPwrFlag(Stop) in t <==> w == FromStop || w == FromPowerOff
    ensures DeinitTimer(TxTimeout) in t <==> w == FromPowerOff
    ensures DeinitTimer(TxPeriod) in t <==> w == FromPowerOff
  {
    match w
    case FromShutdown => [Sram2Init]
    case FromStandby => [ClearPwrFlag(SB)]
    case FromStop => [ClearPwrFlag(Stop), ClearPwrFlag(Stop2)]
    case FromSleep => []
    case FromPowerOff =>
      [ClearPwrFlag(SB), ClearPwrFlag(Stop), ClearPwrFlag(Stop2), Sram2Init,
       DeinitTimer(TxTimeout), DeinitTimer(TxPeriod)]
  }

  /** Re-initialisation only restores RAM2, clears power flags and stops TX timers. */
  lemma ReinitKinds(w: WakePath, a: Action)
    ensures a in ReinitActions(w) ==> a.Sram2Init? || a.ClearPwrFlag? || a.DeinitTimer?
  {
  }

  /** The last wake-specific step once tasks and queues exist: STANDBY and SHUTDOWN
      reset the core, so the RTC interrupt that woke it may have been lost and its
      handler is called by hand; a handler that finds no RTC event does nothing. */
  function ReplayActions(w: WakePath): (t: seq<Action>)
    ensures t == [] || t == [ReplayRtcWkup]
    ensures ReplayRtcWkup in t <==> w == FromShutdown || w == FromStandby
  {
    if w == FromShutdown || w == FromStandby then [ReplayRtcWkup] else []
  }

  /** A call whose status `assert_param` checks. */
  datatype SetupCall = NewQueue(channel: Channel) | NewTask(task: TaskId)

  /** A statement of the setup block: a checked call, or the application's init,
      whose result is not checked. */
  datatype Step = Call(call: SetupCall) | InitApp(app: App)

  function StepAction(s: Step): Action
  {
    match s
    case Call(NewQueue(ch)) => CreateQ(ch)
    case Call(NewTask(tk)) => RegisterTask(tk)
    case InitApp(a) => AppInit(a)
  }

  predicate IsSetupAction(a: Action)
  {
    a.CreateQ? || a.RegisterTask? || a.AppInit?
  }

  function StepActions(steps: seq<Step>): (t: seq<Action>)
    ensures |t| == |steps|
    ensures forall i :: 0 <= i < |steps| ==> t[i] == StepAction(steps[i])
  {
    seq(|steps|, i requires 0 <= i < |steps| => StepAction(steps[i]))
  }

  lemma StepActionsUncons(steps: seq<Step>)
    requires |steps| > 0
    ensures StepActions(steps) == [StepAction(steps[0])] + StepActions(steps[1..])
  {
    assert forall i :: 1 <= i < |steps| ==> steps[i] == steps[1..][i - 1];
  }

  /** The setup block in source order: four queues, the MAC task, the application's
      init, the application task, the IDLE task. */
  function SetupSteps(app: App): seq<Step>
  {
    [Call(NewQueue(App2Mac)), Call(NewQueue(Mac2App)), Call(NewQueue(Infra2Mac)),
     Call(NewQueue(Srvc2Mac)), Call(NewTask(MacTask)), InitApp(app),
     Call(NewTask(AppTask)), Call(NewTask(IdleTask))]
  }

  /** The status each of the seven checked calls returns. The queue set and the
      scheduler are outside this model, so their answers are an input. */
  datatype Replies = Replies(
    app2Mac: Status, mac2App: Status, infra2Mac: Status, srvc2Mac: Status,
    macTask: Status, appTask: Status, idleTask: Status)
  {
    function Of(c: SetupCall): Status
    {
      match c
      case NewQueue(App2Mac) => app2Mac
      case NewQueue(Mac2App) => mac2App
      case NewQueue(Infra2Mac) => infra2Mac
      case NewQueue(Srvc2Mac) => srvc2Mac
      case NewTask(MacTask) => macTask
      case NewTask(AppTask) => appTask
      case NewTask(IdleTask) => idleTask
    }

    /** Every one of the seven calls returns KNS_STATUS_OK. */
    predicate EveryCallOk()
    {
      && app2Mac == Ok && mac2App == Ok && infra2Mac == Ok && srvc2Mac == Ok
      && macTask == Ok && appTask == Ok && idleTask == Ok
    }
  }

  /** Every checked call among `steps` returns KNS_STATUS_OK. */
  predicate AllOk(steps: seq<Step>, status: Replies)
  {
    forall i :: 0 <= i < |steps| && steps[i].Call? ==> status.Of(steps[i].call) == Ok
  }

  datatype SetupOutcome = AllDone | FailedAt(call: SetupCall, index: nat)

  datatype SetupResult = SetupResult(outcome: SetupOutcome, trace: seq<Action>)

  /** Runs the setup block. With `checks` (USE_FULL_ASSERT) this is the block as
      written: every call is made and the first call whose status is not OK stops
      the boot through the assertion handler. Without `checks` it is the corrected
      block: every call is still made and its status ignored (see RunSetupAsWritten
      for what the code as written does then). `status` stands for the queue set and
      the scheduler, whose code is outside this model. */
  function RunSetup(steps: seq<Step>, status: Replies, checks: bool): (r: SetupResult)
    ensures r.outcome.AllDone? ==> |r.trace| == |steps|
    ensures r.outcome.FailedAt? ==> checks && r.outcome.index < |steps| && |r.trace| == r.outcome.index + 1
    ensures !checks ==> r.outcome == AllDone
    decreases |steps|
  {
    if |steps| == 0 then SetupResult(AllDone, [])
    else
      var a := StepAction(steps[0]);
      if checks && steps[0].Call? && status.Of(steps[0].call) != Ok then
        SetupResult(FailedAt(steps[0].call, 0), [a])
      else
        var r := RunSetup(steps[1..], status, checks);
        match r.outcome
        case AllDone => SetupResult(AllDone, [a] + r.trace)
        case FailedAt(c, k) => SetupResult(FailedAt(c, k + 1), [a] + r.trace)
  }

  /** The setup block completes exactly when assertions are off or every checked
      call succeeds, and then it has made every call in order; it only ever makes
      queue, task and application-init calls. */
  lemma {:induction false} RunSetupCompletes(steps: seq<Step>, status: Replies, checks: bool)
    ensures var r := RunSetup(steps, status, checks);
      && (r.outcome == AllDone <==> !checks || AllOk(steps, status))
      && (r.outcome == AllDone ==> r.trace == StepActions(steps))
      && (r.outcome.FailedAt? ==> checks && status.Of(r.outcome.call) != Ok)
      && (forall a :: a in r.trace ==> IsSetupAction(a))
    decreases |steps|
  {
    if |steps| > 0 {
      RunSetupCompletes(steps[1..], status, checks);
      AllOkUncons(steps, status);
      StepActionsUncons(steps);
    }
  }

  /** A failed setup block stops at the first call that did not return OK: every
      earlier call succeeded, and the trace ends with the failing call. */
  lemma {:induction false} RunSetupStopsAtFirstFailure(steps: seq<Step>, status: Replies, checks: bool)
    ensures var r := RunSetup(steps, status, checks);
      r.outcome.FailedAt? ==>
        && checks
        && r.outcome.index < |steps|
        && steps[r.outcome.index] == Call(r.outcome.call)
        && status.Of(r.outcome.call) != Ok
        && AllOk(steps[..r.outcome.index], status)
        && r.trace == StepActions(steps[..r.outcome.index + 1])
    decreases |steps|
  {
    var r := RunSetup(steps, status, checks);
    if |steps| > 0 && r.outcome.FailedAt? {
      if checks && steps[0].Call? && status.Of(steps[0].call) != Ok {
        assert steps[..1] == [steps[0]];
        assert AllOk(steps[..0], status);
      } else {
        var rest := RunSetup(steps[1..], status, checks);
        assert rest.outcome.FailedAt?;
        var k := rest.outcome.index;
        assert r.outcome.index == k + 1;
        assert r.trace == [StepAction(steps[0])] + rest.trace;
        RunSetupStopsAtFirstFailure(steps[1..], status, checks);
        assert AllOk(steps[1..][..k], status);
        assert steps[..k + 2][1..] == steps[1..][..k + 1];
        assert steps[..k + 1][1..] == steps[1..][..k];
        AllOkUncons(steps[..k + 1], status);
        StepActionsUncons(steps[..k + 2]);
      }
    }
  }

  /** AllOk of a non-empty block splits into its first step and the rest. */
  lemma AllOkUncons(steps: seq<Step>, status: Replies)
    requires |steps| > 0
    ensures AllOk(steps, status) <==>
      (steps[0].Call? ==> status.Of(steps[0].call) == Ok) && AllOk(steps[1..], status)
  {
    assert forall i :: 1 <= i < |steps| ==> steps[i] == steps[1..][i - 1];
  }

  /** The application init calls among `steps`, in order. */
  function AppInitsOf(steps: seq<Step>): (t: seq<Action>)
    ensures forall a :: a in t ==> a.AppInit?
    ensures forall i :: 0 <= i < |steps| && steps[i].InitApp? ==> AppInit(steps[i].app) in t
  {
    if |steps| == 0 then []
    else
      var rest := AppInitsOf(steps[1..]);
      assert forall i :: 1 <= i < |steps| ==> steps[i] == steps[1..][i - 1];
      match steps[0]
      case InitApp(a) => [AppInit(a)] + rest
      case Call(_) => rest
  }

  /** The setup block as main.c writes it: every checked call sits inside
      `assert_param(...)`. Under the usual STM32Cube definition, `assert_param(expr)`
      expands to `((void)0U)` when USE_FULL_ASSERT is not defined, so the argument is
      never evaluated: no queue is created and no task is registered. */
  function RunSetupAsWritten(steps: seq<Step>, status: Replies, checks: bool): (r: SetupResult)
    ensures checks ==> r == RunSetup(steps, status, checks)
    ensures !checks ==> r.outcome == AllDone && forall a :: a in r.trace ==> a.AppInit?
  {
    if checks then RunSetup(steps, status, true)
    else SetupResult(AllDone, AppInitsOf(steps))
  }

  /** The actions of a setup block that ran to completion, in source order. */
  function SetupCallsInOrder(app: App): seq<Action>
  {
    [CreateQ(App2Mac), CreateQ(Mac2App), CreateQ(Infra2Mac), CreateQ(Srvc2Mac),
     RegisterTask(MacTask), AppInit(app), RegisterTask(AppTask), RegisterTask(IdleTask)]
  }

  /** The setup block's checks pass exactly when every one of the seven calls succeeds. */
  lemma SetupStepsOk(app: App, status: Replies)
    ensures AllOk(SetupSteps(app), status) <==> status.EveryCallOk()
  {
    var steps := SetupSteps(app);
    if AllOk(steps, status) {
      assert steps[0].Call? && steps[1].Call? && steps[2].Call? && steps[3].Call?;
      assert steps[4].Call? && steps[6].Call? && steps[7].Call?;
    }
  }

  /** Its steps, made in order, are the setup actions in source order. */
  lemma SetupStepsActions(app: App)
    ensures StepActions(SetupSteps(app)) == SetupCallsInOrder(app)
  {
  }

  /** The setup steps hold one application init, the one of the build's application. */
  lemma SetupStepsInits(app: App)
    ensures AppInitsOf(SetupSteps(app)) == [AppInit(app)]
  {
    var steps := SetupSteps(app);
    assert steps[1..][1..][1..][1..][1..][0] == InitApp(app);
    assert AppInit(app) in AppInitsOf(steps);
  }

  /** The setup block of this build as main.c writes it. With USE_FULL_ASSERT it is
      the checked block; without it only the application's init is left. */
  function SetupBlockAsWritten(build: Build, status: Replies): (s: SetupResult)
    ensures s.outcome.AllDone? <==> !build.assertChecks || status.EveryCallOk()
    ensures build.assertChecks && s.outcome.AllDone? ==> s.trace == SetupCallsInOrder(build.app)
    ensures !build.assertChecks ==> s.trace == [AppInit(build.app)]
    ensures s.outcome.FailedAt? ==> build.assertChecks && status.Of(s.outcome.call) != Ok
  {
    SetupStepsOk(build.app, status);
    SetupStepsActions(build.app);
    SetupStepsInits(build.app);
    RunSetupCompletes(SetupSteps(build.app), status, build.assertChecks);
    RunSetupAsWritten(SetupSteps(build.app), status, build.assertChecks)
  }

  /** The setup block of this build, corrected: every queue and task call is made in
      every build, and its status is checked only under USE_FULL_ASSERT. */
  function SetupBlock(build: Build, status: Replies): (s: SetupResult)
    ensures s.outcome.AllDone? <==> !build.assertChecks || status.EveryCallOk()
    ensures s.outcome.AllDone? ==> s.trace == SetupCallsInOrder(build.app)
    ensures s.outcome.FailedAt? ==> build.assertChecks && status.Of(s.outcome.call) != Ok
  {
    SetupStepsOk(build.app, status);
    SetupStepsActions(build.app);
    RunSetupCompletes(SetupSteps(build.app), status, build.assertChecks);
    RunSetup(SetupSteps(build.app), status, build.assertChecks)
  }

  /** The setup block only creates queues, registers tasks and initialises the
      application. */
  lemma SetupBlockKinds(build: Build, status: Replies, a: Action)
    ensures a in SetupBlock(build, status).trace ==> IsSetupAction(a)
  {
    RunSetupCompletes(SetupSteps(build.app), status, build.assertChecks);
  }

  datatype Outcome = Started | HaltedAtModeCheck | HaltedAtSetup(call: SetupCall)

  /** Where the boot ended, the persisted mode at that point, and what it did, phase
      by phase: the reset-flag check, the range check and wake-path re-initialisation,
      the setup block, and the finish (replay, commit NONE, start the scheduler). */
  datatype BootResult = BootResult(
    outcome: Outcome,
    persisted: nat,
    reset: seq<Action>,
    wake: seq<Action>,
    setup: seq<Action>,
    finish: seq<Action>)
  {
    /** Every action of the boot, in order. */
    function Trace(): seq<Action>
    {
      reset + wake + setup + finish
    }
  }

  /** The nRST pin flag is also set at power-on and when a debugger attaches; it is
      cleared and otherwise only changes what is logged. */
  function ResetActions(pinReset: bool): seq<Action>
  {
    if pinReset then [ClearResetFlags] else []
  }

  /** What a boot the range check lets through does before the setup block: force an
      out-of-range code to NONE, re-initialise per wake path, initialise the LPM client. */
  function WakeActions(enc: ModeEncoding, build: Build, raw: nat): (t: seq<Action>)
    requires enc.Valid()
    ensures |t| > 0 && t[|t| - 1] == LpmInit
    ensures t[0] == ForceMode(enc.none) <==> raw > Deepest(enc, build)
    ensures ForceMode(enc.none) in t <==> raw > Deepest(enc, build)
  {
    var mode := Normalise(enc, build, raw);
    ReinitKinds(WakePathOf(enc, mode), ForceMode(enc.none));
    (if mode != raw then [ForceMode(enc.none)] else []) + ReinitActions(WakePathOf(enc, mode)) + [LpmInit]
  }

  /** Before the setup block the boot neither sets anything up, replays the RTC
      handler nor starts the scheduler, and its only re-initialisation is the one its
      wake path selects. */
  lemma WakeKinds(enc: ModeEncoding, build: Build, raw: nat, a: Action)
    requires enc.Valid()
    ensures a in WakeActions(enc, build, raw) ==>
      !IsSetupAction(a) && a != StartOS && a != ReplayRtcWkup && a != ClearResetFlags
    ensures a.Sram2Init? || a.ClearPwrFlag? || a.DeinitTimer? ==>
      (a in WakeActions(enc, build, raw) <==> a in ReinitActions(WakePathOf(enc, Normalise(enc, build, raw))))
  {
    ReinitKinds(WakePathOf(enc, Normalise(enc, build, raw)), a);
  }

  /** The end of a boot whose setup succeeded: replay when the wake path asks for it,
      commit NONE, start the scheduler. */
  function FinishActions(enc: ModeEncoding, w: WakePath): (t: seq<Action>)
    ensures t == [ForceMode(enc.none), StartOS] || t == [ReplayRtcWkup, ForceMode(enc.none), StartOS]
    ensures |t| == 3 <==> w == FromShutdown || w == FromStandby
  {
    ReplayActions(w) + [ForceMode(enc.none), StartOS]
  }

  /** `main` from reset to KNS_OS_main around a given setup block `s`. `pinReset` is
      the RCC nRST flag, `raw` the mode code read from the backup register. A halted
      boot ends in the assertion handler (halt or reset). */
  function BootAround(enc: ModeEncoding, build: Build, pinReset: bool, raw: nat, s: SetupResult): BootResult
    requires enc.Valid()
  {
    var t0 := ResetActions(pinReset);
    if raw > Deepest(enc, build) && build.assertChecks then
      BootResult(HaltedAtModeCheck, raw, t0, [], [], [])
    else
      var mode := Normalise(enc, build, raw);
      var wake := WakeActions(enc, build, raw);
      match s.outcome
      case FailedAt(c, _) => BootResult(HaltedAtSetup(c), mode, t0, wake, s.trace, [])
      case AllDone =>
        BootResult(Started, enc.none, t0, wake, s.trace, FinishActions(enc, WakePathOf(enc, mode)))
  }

  /** `main` with the corrected setup block, `status` giving the result of each
      checked call. This is the boot the properties are stated about. */
  function BootSequence(enc: ModeEncoding, build: Build, pinReset: bool, raw: nat, status: Replies): (r: BootResult)
    requires enc.Valid()
    ensures r.outcome == HaltedAtModeCheck <==> build.assertChecks && raw > Deepest(enc, build)
    ensures r.outcome.HaltedAtSetup? ==> build.assertChecks && status.Of(r.outcome.call) != Ok
    ensures r.outcome.Started? <==> StartOS in r.Trace()
    ensures r.outcome.Started? ==> r.persisted == enc.none
  {
    WakeKinds(enc, build, raw, StartOS);
    SetupBlockKinds(build, status, StartOS);
    BootAround(enc, build, pinReset, raw, SetupBlock(build, status))
  }

  /** `main` as written, under the same single read of the persisted mode as
      `BootSequence`: the same boot around the setup block as written. It is the
      corrected boot under USE_FULL_ASSERT, and differs from it only in its setup
      phase otherwise. */
  function BootAsWritten(enc: ModeEncoding, build: Build, pinReset: bool, raw: nat, status: Replies): (r: BootResult)
    requires enc.Valid()
    ensures build.assertChecks ==> r == BootSequence(enc, build, pinReset, raw, status)
    ensures var b := BootSequence(enc, build, pinReset, raw, status);
      && r.outcome == b.outcome && r.persisted == b.persisted
      && r.reset == b.reset && r.wake == b.wake && r.finish == b.finish
    ensures !build.assertChecks ==> r.setup == [AppInit(build.app)]
  {
    BootAround(enc, build, pinReset, raw, SetupBlockAsWritten(build, status))
  }
}

=== FILE: boot_properties.dfy ===
/** What the boot sequencer guarantees, stated over every build, every persisted mode
    code and every status the queue set and the scheduler may return. */
module BootProperties {
  import opened Lpm
  import opened Kns
  import opened Boot

  /** The boot counts as a start from reset or power off: the persisted code is
      deeper than the build supports, or it names none of the four sleep modes. */
  predicate ColdWake(enc: ModeEncoding, build: Build, raw: nat)
    requires enc.Valid()
  {
    raw > Deepest(enc, build)
    || (raw != enc.sleep && raw != enc.stop && raw != enc.standby && raw != enc.shutdown)
  }

  /** The queue and task calls of a trace, and the application init, in order. */
  function SetupOnly(t: seq<Action>): seq<Action>
  {
    if |t| == 0 then []
    else (if IsSetupAction(t[0]) then [t[0]] else []) + SetupOnly(t[1..])
  }

  lemma {:induction false} SetupOnlyAppend(a: seq<Action>, b: seq<Action>)
    ensures SetupOnly(a + b) == SetupOnly(a) + SetupOnly(b)
    decreases |a|
  {
    if |a| == 0 {
      assert a + b == b;
    } else {
      var first := if IsSetupAction(a[0]) then [a[0]] else [];
      assert (a + b)[0] == a[0];
      assert (a + b)[1..] == a[1..] + b;
      SetupOnlyAppend(a[1..], b);
      calc {
        SetupOnly(a + b);
        first + SetupOnly(a[1..] + b);
        first + (SetupOnly(a[1..]) + SetupOnly(b));
        (first + SetupOnly(a[1..])) + SetupOnly(b);
        SetupOnly(a) + SetupOnly(b);
      }
    }
  }

  lemma {:induction false} SetupOnlyOfOthers(t: seq<Action>)
    requires forall i :: 0 <= i < |t| ==> !IsSetupAction(t[i])
    ensures SetupOnly(t) == []
    decreases |t|
  {
    if |t| > 0 {
      assert forall i :: 0 <= i < |t| - 1 ==> t[1..][i] == t[i + 1];
      SetupOnlyOfOthers(t[1..]);
    }
  }

  lemma {:induction false} SetupOnlyOfSetup(t: seq<Action>)
    requires forall i :: 0 <= i < |t| ==> IsSetupAction(t[i])
    ensures SetupOnly(t) == t
    decreases |t|
  {
    if |t| > 0 {
      assert forall i :: 0 <= i < |t| - 1 ==> t[1..][i] == t[i + 1];
      SetupOnlyOfSetup(t[1..]);
      assert t == [t[0]] + t[1..];
    }
  }

  /** The path the re-initialisation switch takes, in terms of the code read. */
  lemma WakePathMatchesRaw(enc: ModeEncoding, build: Build, raw: nat)
    requires enc.Valid()
    ensures var w := WakePathOf(enc, Normalise(enc, build, raw));
      && (w == FromPowerOff <==> ColdWake(enc, build, raw))
      && (w == FromShutdown <==> raw == enc.shutdown && build.shutdownEnabled)
      && (w == FromStandby <==> raw == enc.standby)
      && (w == FromStop <==> raw == enc.stop)
      && (w == FromSleep <==> raw == enc.sleep)
  {
  }

  /** The phases of a boot past the range check. */
  lemma Phases(enc: ModeEncoding, build: Build, pinReset: bool, raw: nat, status: Replies)
    requires enc.Valid()
    requires !(build.assertChecks && raw > Deepest(enc, build))
    ensures var r := BootSequence(enc, build, pinReset, raw, status);
      var s := SetupBlock(build, status);
      && r.reset == ResetActions(pinReset)
      && r.wake == WakeActions(enc, build, raw)
      && r.setup == s.trace
      && (r.outcome.Started? <==> s.outcome.AllDone?)
      && r.finish == (if s.outcome.AllDone? then FinishActions(enc, WakePathOf(enc, Normalise(enc, build, raw))) else [])
  {
  }

  /** The re-initialisation actions are the only ones of their kind in a boot. */
  lemma ReinitMembership(enc: ModeEncoding, build: Build, pinReset: bool, raw: nat, status: Replies, a: Action)
    requires enc.Valid()
    requires !(build.assertChecks && raw > Deepest(enc, build))
    requires a.Sram2Init? || a.ClearPwrFlag? || a.DeinitTimer?
    ensures a in BootSequence(enc, build, pinReset, raw, status).Trace() <==>
      a in ReinitActions(WakePathOf(enc, Normalise(enc, build, raw)))
  {
    Phases(enc, build, pinReset, raw, status);
    WakeKinds(enc, build, raw, a);
    SetupBlockKinds(build, status, a);
  }

  /** Whatever the wake path, the persisted mode is NONE when the scheduler starts:
      the boot ends by committing NONE and then calling KNS_OS_main, nothing after. */
  lemma SchedulerStartsInModeNone(enc: ModeEncoding, build: Build, pinReset: bool, raw: nat, status: Replies)
    requires enc.Valid()
    ensures var r := BootSequence(enc, build, pinReset, raw, status);
      var t := r.Trace();
      r.outcome.Started? ==>
        && r.persisted == enc.none
        && |t| >= 2
        && t[|t| - 2] == ForceMode(enc.none)
        && t[|t| - 1] == StartOS
        && forall i :: 0 <= i < |t| - 1 ==> t[i] != StartOS
  {
    var r := BootSequence(enc, build, pinReset, raw, status);
    if r.outcome.Started? {
      Phases(enc, build, pinReset, raw, status);
      WakeKinds(enc, build, raw, StartOS);
      SetupBlockKinds(build, status, StartOS);
      EndsWithStart(r.reset + r.wake + r.setup, r.finish, enc.none);
    }
  }

  /** A trace that reaches StartOS only through a finish phase ends with the commit
      of NONE and the start, and has no earlier start. */
  lemma EndsWithStart(head: seq<Action>, fin: seq<Action>, none: nat)
    requires StartOS !in head
    requires fin == [ForceMode(none), StartOS] || fin == [ReplayRtcWkup, ForceMode(none), StartOS]
    ensures var t := head + fin;
      && |t| >= 2
      && t[|t| - 2] == ForceMode(none)
      && t[|t| - 1] == StartOS
      && forall i :: 0 <= i < |t| - 1 ==> t[i] != StartOS
  {
    var t := head + fin;
    forall i | 0 <= i < |t| - 1
      ensures t[i] != StartOS
    {
      if i < |head| {
        assert t[i] == head[i];
      } else {
        assert t[i] == fin[i - |head|];
      }
    }
  }

  /** The reset flags are cleared first, and only when the nRST pin flag was set. */
  lemma ResetFlagsClearedFirst(enc: ModeEncoding, build: Build, pinReset: bool, raw: nat, status: Replies)
    requires enc.Valid()
    ensures var t := BootSequence(enc, build, pinReset, raw, status).Trace();
      (|t| > 0 && t[0] == ClearResetFlags) <==> pinReset
  {
    var r := BootSequence(enc, build, pinReset, raw, status);
    if !(build.assertChecks && raw > Deepest(enc, build)) {
      Phases(enc, build, pinReset, raw, status);
      WakeKinds(enc, build, raw, r.wake[0]);
      if !pinReset {
        assert r.Trace()[0] == r.wake[0];
      }
    }
  }

  /** Without USE_FULL_ASSERT an out-of-range code is overwritten with NONE right
      after the reset flags are handled, and an in-range code is left alone. */
  lemma OutOfRangeModeIsForcedToNone(enc: ModeEncoding, build: Build, pinReset: bool, raw: nat, status: Replies)
    requires enc.Valid()
    requires !build.assertChecks
    ensures var t := BootSequence(enc, build, pinReset, raw, status).Trace();
      var k := if pinReset then 1 else 0;
      && |t| > k
      && (t[k] == ForceMode(enc.none) <==> raw > Deepest(enc, build))
  {
    var r := BootSequence(enc, build, pinReset, raw, status);
    Phases(enc, build, pinReset, raw, status);
    var k := if pinReset then 1 else 0;
    assert r.Trace()[k] == r.wake[0];
  }

  /** With USE_FULL_ASSERT the same code stops the boot before anything is
      re-initialised, and nothing is overwritten. */
  lemma OutOfRangeModeHaltsWithAssertions(enc: ModeEncoding, build: Build, pinReset: bool, raw: nat, status: Replies)
    requires enc.Valid()
    requires build.assertChecks && raw > Deepest(enc, build)
    ensures var r := BootSequence(enc, build, pinReset, raw, status);
      && r.outcome == HaltedAtModeCheck
      && r.persisted == raw
      && forall a :: a in r.Trace() ==> a == ClearResetFlags
  {
  }

  /** Retention RAM2 is re-initialised exactly on a wake from SHUTDOWN and on a
      cold start, never after SLEEP, STOP or STANDBY. */
  lemma Sram2InitExactlyOnShutdownOrCold(enc: ModeEncoding, build: Build, pinReset: bool, raw: nat, status: Replies)
    requires enc.Valid()
    ensures var r := BootSequence(enc, build, pinReset, raw, status);
      r.outcome != HaltedAtModeCheck ==>
        (Sram2Init in r.Trace() <==> ColdWake(enc, build, raw) || raw == enc.shutdown)
  {
    if !(build.assertChecks && raw > Deepest(enc, build)) {
      ReinitMembership(enc, build, pinReset, raw, status, Sram2Init);
      WakePathMatchesRaw(enc, build, raw);
    }
  }

  /** The power flags each wake path clears, and the TX timers only a cold start
      de-initialises. */
  lemma PwrFlagsPerWakePath(enc: ModeEncoding, build: Build, pinReset: bool, raw: nat, status: Replies)
    requires enc.Valid()
    ensures var r := BootSequence(enc, build, pinReset, raw, status);
      var t := r.Trace();
      r.outcome != HaltedAtModeCheck ==>
        && (ClearPwrFlag(SB) in t <==> ColdWake(enc, build, raw) || raw == enc.standby)
        && (ClearPwrFlag(Stop) in t <==> ColdWake(enc, build, raw) || raw == enc.stop)
        && (ClearPwrFlag(Stop2) in t <==> ColdWake(enc, build, raw) || raw == enc.stop)
        && (DeinitTimer(TxTimeout) in t <==> ColdWake(enc, build, raw))
        && (DeinitTimer(TxPeriod) in t <==> ColdWake(enc, build, raw))
  {
    if !(build.assertChecks && raw > Deepest(enc, build)) {
      WakePathMatchesRaw(enc, build, raw);
      ReinitMembership(enc, build, pinReset, raw, status, ClearPwrFlag(SB));
      ReinitMembership(enc, build, pinReset, raw, status, ClearPwrFlag(Stop));
      ReinitMembership(enc, build, pinReset, raw, status, ClearPwrFlag(Stop2));
      ReinitMembership(enc, build, pinReset, raw, status, DeinitTimer(TxTimeout));
      ReinitMembership(enc, build, pinReset, raw, status, DeinitTimer(TxPeriod));
    }
  }

  /** In a build without LPM_SHUTDOWN_ENABLED the SHUTDOWN branch cannot be taken:
      RAM2 is re-initialised only together with the cold-start timer clean-up. */
  lemma ShutdownBranchNeedsSupport(enc: ModeEncoding, build: Build, pinReset: bool, raw: nat, status: Replies)
    requires enc.Valid()
    requires !build.shutdownEnabled
    ensures var r := BootSequence(enc, build, pinReset, raw, status);
      r.outcome != HaltedAtModeCheck ==>
        (Sram2Init in r.Trace() <==> DeinitTimer(TxTimeout) in r.Trace())
  {
    Sram2InitExactlyOnShutdownOrCold(enc, build, pinReset, raw, status);
    PwrFlagsPerWakePath(enc, build, pinReset, raw, status);
  }

  /** With USE_FULL_ASSERT the scheduler starts exactly when the persisted code is in
      range and every queue and task call returned KNS_STATUS_OK; without it, always. */
  lemma StartsIffChecksPass(enc: ModeEncoding, build: Build, pinReset: bool, raw: nat, status: Replies)
    requires enc.Valid()
    ensures var r := BootSequence(enc, build, pinReset, raw, status);
      r.outcome.Started? <==>
        !build.assertChecks || (raw <= Deepest(enc, build) && status.EveryCallOk())
  {
    if !(build.assertChecks && raw > Deepest(enc, build)) {
      Phases(enc, build, pinReset, raw, status);
    }
  }

  /** A boot that starts the scheduler creates the four queues, then registers MAC,
      initialises the application, registers APP and IDLE, in that order and once each. */
  lemma SetupInSourceOrder(enc: ModeEncoding, build: Build, pinReset: bool, raw: nat, status: Replies)
    requires enc.Valid()
    ensures var r := BootSequence(enc, build, pinReset, raw, status);
      r.outcome.Started? ==>
        SetupOnly(r.Trace()) == SetupCallsInOrder(build.app)
  {
    var r := BootSequence(enc, build, pinReset, raw, status);
    if r.outcome.Started? {
      Phases(enc, build, pinReset, raw, status);
      WakeHasNoSetup(enc, build, raw);
      ResetHasNoSetup(r.reset);
      FinishHasNoSetup(r.finish, enc.none);
      SetupCallsKept(build.app);
      SetupOnlyOfPhases(r.reset, r.wake, r.setup, r.finish);
    }
  }

  /** A trace whose only setup actions are those of a completed setup block has
      exactly those, in order. */
  lemma SetupOnlyOfPhases(reset: seq<Action>, wake: seq<Action>, setup: seq<Action>, finish: seq<Action>)
    requires SetupOnly(reset) == [] && SetupOnly(wake) == [] && SetupOnly(finish) == []
    requires SetupOnly(setup) == setup
    ensures SetupOnly(reset + wake + setup + finish) == setup
  {
    SetupOnlyOfFour(reset, wake, setup, finish);
    assert [] + [] + setup + [] == setup;
  }

  lemma ResetHasNoSetup(reset: seq<Action>)
    requires reset == [] || reset == [ClearResetFlags]
    ensures SetupOnly(reset) == []
  {
    SetupOnlyOfOthers(reset);
  }

  lemma FinishHasNoSetup(finish: seq<Action>, none: nat)
    requires finish == [ForceMode(none), StartOS] || finish == [ReplayRtcWkup, ForceMode(none), StartOS]
    ensures SetupOnly(finish) == []
  {
    SetupOnlyOfOthers(finish);
  }

  lemma SetupCallsKept(app: App)
    ensures SetupOnly(SetupCallsInOrder(app)) == SetupCallsInOrder(app)
  {
    SetupOnlyOfSetup(SetupCallsInOrder(app));
  }

  /** Nothing before the setup block creates a queue, registers a task or
      initialises the application. */
  lemma WakeHasNoSetup(enc: ModeEncoding, build: Build, raw: nat)
    requires enc.Valid()
    ensures SetupOnly(WakeActions(enc, build, raw)) == []
  {
    var t := WakeActions(enc, build, raw);
    forall i | 0 <= i < |t|
      ensures !IsSetupAction(t[i])
    {
      WakeKinds(enc, build, raw, t[i]);
    }
    SetupOnlyOfOthers(t);
  }

  lemma SetupOnlyOfFour(a: seq<Action>, b: seq<Action>, c: seq<Action>, d: seq<Action>)
    ensures SetupOnly(a + b + c + d) == SetupOnly(a) + SetupOnly(b) + SetupOnly(c) + SetupOnly(d)
  {
    SetupOnlyAppend(a + b + c, d);
    SetupOnlyAppend(a + b, c);
    SetupOnlyAppend(a, b);
  }

  /** The RTC wake-up handler is replayed exactly after a STANDBY or SHUTDOWN wake. */
  lemma ReplayOnlyAfterDeepWake(enc: ModeEncoding, build: Build, pinReset: bool, raw: nat, status: Replies)
    requires enc.Valid()
    ensures var r := BootSequence(enc, build, pinReset, raw, status);
      r.outcome.Started? ==>
        (ReplayRtcWkup in r.Trace() <==>
           raw == enc.standby || (raw == enc.shutdown && build.shutdownEnabled))
  {
    var r := BootSequence(enc, build, pinReset, raw, status);
    if r.outcome.Started? {
      Phases(enc, build, pinReset, raw, status);
      WakeKinds(enc, build, raw, ReplayRtcWkup);
      SetupBlockKinds(build, status, ReplayRtcWkup);
      assert ReplayRtcWkup in r.Trace() <==> ReplayRtcWkup in r.finish;
      DeepWakeReplays(enc, build, raw);
    }
  }

  /** The finish phase replays exactly after a STANDBY or SHUTDOWN wake. */
  lemma DeepWakeReplays(enc: ModeEncoding, build: Build, raw: nat)
    requires enc.Valid()
    ensures ReplayRtcWkup in FinishActions(enc, WakePathOf(enc, Normalise(enc, build, raw))) <==>
      raw == enc.standby || (raw == enc.shutdown && build.shutdownEnabled)
  {
    WakePathMatchesRaw(enc, build, raw);
  }

  /** After a STANDBY or SHUTDOWN wake the replay is the last step before the mode is
      committed and the scheduler starts, so every queue and task call comes before
      the handler runs. */
  lemma ReplayRunsAfterSetup(enc: ModeEncoding, build: Build, pinReset: bool, raw: nat, status: Replies)
    requires enc.Valid()
    ensures var r := BootSequence(enc, build, pinReset, raw, status);
      var t := r.Trace();
      r.outcome.Started? && (raw == enc.standby || (raw == enc.shutdown && build.shutdownEnabled)) ==>
        && |t| >= 3
        && t[|t| - 3] == ReplayRtcWkup
        && t[|t| - 2] == ForceMode(enc.none)
        && t[|t| - 1] == StartOS
  {
    var r := BootSequence(enc, build, pinReset, raw, status);
    if r.outcome.Started? && (raw == enc.standby || (raw == enc.shutdown && build.shutdownEnabled)) {
      Phases(enc, build, pinReset, raw, status);
      DeepWakeReplays(enc, build, raw);
      EndsWithReplay(r.reset + r.wake + r.setup, r.finish, enc.none);
    }
  }

  /** A trace that ends with the replay phase ends with the replay, the commit of
      NONE and the start. */
  lemma EndsWithReplay(head: seq<Action>, fin: seq<Action>, none: nat)
    requires fin == [ForceMode(none), StartOS] || fin == [ReplayRtcWkup, ForceMode(none), StartOS]
    requires ReplayRtcWkup in fin
    ensures var t := head + fin;
      && |t| >= 3
      && t[|t| - 3] == ReplayRtcWkup
      && t[|t| - 2] == ForceMode(none)
      && t[|t| - 1] == StartOS
  {
  }

  /** A wake from SHUTDOWN with every call succeeding: RAM2 is re-initialised, the RTC
      handler is replayed and the persisted mode reads NONE once the scheduler starts. */
  lemma ShutdownWakeScenario(enc: ModeEncoding, pinReset: bool, app: App, status: Replies)
    requires enc.Valid()
    requires status.EveryCallOk()
    ensures var r := BootSequence(enc, Build(app, true, true, true), pinReset, enc.shutdown, status);
      && r.outcome == Started
      && r.persisted == enc.none
      && Sram2Init in r.Trace()
      && ReplayRtcWkup in r.Trace()
      && DeinitTimer(TxTimeout) !in r.Trace()
  {
    var build := Build(app, true, true, true);
    Sram2InitExactlyOnShutdownOrCold(enc, build, pinReset, enc.shutdown, status);
    ReplayOnlyAfterDeepWake(enc, build, pinReset, enc.shutdown, status);
    StartsIffChecksPass(enc, build, pinReset, enc.shutdown, status);
    PwrFlagsPerWakePath(enc, build, pinReset, enc.shutdown, status);
  }

  /** A corrupted persisted code in a build without USE_FULL_ASSERT: nothing stops, the
      mode is forced to NONE and the boot proceeds as a cold start. */
  lemma CorruptModeScenario(enc: ModeEncoding, build: Build, pinReset: bool, raw: nat, status: Replies)
    requires enc.Valid()
    requires !build.assertChecks && raw > enc.shutdown
    ensures var r := BootSequence(enc, build, pinReset, raw, status);
      && r.outcome == Started
      && ForceMode(enc.none) in r.wake
      && Sram2Init in r.Trace()
      && DeinitTimer(TxPeriod) in r.Trace()
      && ReplayRtcWkup !in r.Trace()
  {
    OutOfRangeModeIsForcedToNone(enc, build, pinReset, raw, status);
    StartsIffChecksPass(enc, build, pinReset, raw, status);
    Sram2InitExactlyOnShutdownOrCold(enc, build, pinReset, raw, status);
    PwrFlagsPerWakePath(enc, build, pinReset, raw, status);
    ReplayOnlyAfterDeepWake(enc, build, pinReset, raw, status);
  }

  /** The setup block as written, in a build without USE_FULL_ASSERT: the calls inside
      `assert_param` vanish, so no queue is created and no task is registered. */
  lemma CompiledOutAssertSkipsSetup(app: App, status: Replies)
    ensures var r := RunSetupAsWritten(SetupSteps(app), status, false);
      && r.outcome == AllDone
      && r.trace == [AppInit(app)]
  {
    SetupStepsInits(app);
  }

  /** The whole boot as written, in a build without USE_FULL_ASSERT: the scheduler is
      started with no queue created and no task registered, and the application's
      init is the only setup action left. */
  lemma AsWrittenBootSetsUpNothing(enc: ModeEncoding, build: Build, pinReset: bool, raw: nat, status: Replies)
    requires enc.Valid()
    requires !build.assertChecks
    ensures var r := BootAsWritten(enc, build, pinReset, raw, status);
      var t := r.Trace();
      && r.outcome == Started
      && SetupOnly(t) == [AppInit(build.app)]
      && CreateQ(App2Mac) !in t && CreateQ(Mac2App) !in t
      && CreateQ(Infra2Mac) !in t && CreateQ(Srvc2Mac) !in t
      && RegisterTask(MacTask) !in t && RegisterTask(AppTask) !in t
      && RegisterTask(IdleTask) !in t
  {
    var r := BootAsWritten(enc, build, pinReset, raw, status);
    Phases(enc, build, pinReset, raw, status);
    StartsIffChecksPass(enc, build, pinReset, raw, status);
    WakeHasNoSetup(enc, build, raw);
    ResetHasNoSetup(r.reset);
    FinishHasNoSetup(r.finish, enc.none);
    OnlyInitIsSetUp(r.reset, r.wake, r.setup, r.finish, build.app);
  }

  /** A trace whose only setup action is the application's init creates no queue and
      registers no task. */
  lemma OnlyInitIsSetUp(reset: seq<Action>, wake: seq<Action>, setup: seq<Action>, finish: seq<Action>, app: App)
    requires SetupOnly(reset) == [] && SetupOnly(wake) == [] && SetupOnly(finish) == []
    requires setup == [AppInit(app)]
    ensures var t := reset + wake + setup + finish;
      && SetupOnly(t) == [AppInit(app)]
      && forall a :: a in t && (a.CreateQ? || a.RegisterTask?) ==> false
  {
    var t := reset + wake + setup + finish;
    SetupOnlyOfSetup(setup);
    SetupOnlyOfPhases(reset, wake, setup, finish);
    forall a | a in t && (a.CreateQ? || a.RegisterTask?)
      ensures false
    {
      SetupOnlyKeeps(t, a);
    }
  }

  /** Every setup action of a trace survives the filter. */
  lemma {:induction false} SetupOnlyKeeps(t: seq<Action>, a: Action)
    requires a in t && IsSetupAction(a)
    ensures a in SetupOnly(t)
    decreases |t|
  {
    if t[0] != a {
      assert a in t[1..];
      SetupOnlyKeeps(t[1..], a);
    }
  }

  /** The corrected setup block in the same build: every queue is created and every
      task registered, whatever status the calls return. */
  lemma UncheckedSetupStillRuns(app: App, status: Replies)
    ensures var r := RunSetup(SetupSteps(app), status, false);
      && r.outcome == AllDone
      && CreateQ(App2Mac) in r.trace && CreateQ(Mac2App) in r.trace
      && CreateQ(Infra2Mac) in r.trace && CreateQ(Srvc2Mac) in r.trace
      && RegisterTask(MacTask) in r.trace && RegisterTask(AppTask) in r.trace
      && RegisterTask(IdleTask) in r.trace
  {
    RunSetupCompletes(SetupSteps(app), status, false);
    SetupStepsActions(app);
  }
}

=== FILE: idle.dfy ===
/** The IDLE task of main.c (`IDLE_task`): the last task the scheduler runs when no
    other task has work. It decides, once per pass, whether the device may enter low
    power. In a bare-metal build the decision is taken with interrupts masked, so that
    an interrupt cannot post work between the last check and LPM_enter; the mask found
    on entry is put back on every path.

    Interrupts are not concurrent here. The rest of the system is a sequence of ticks,
    one consumed at each point where the model lets an interrupt run: before each pin
    reading (the reading and the bare-metal work check share that point), and in the
    bare-metal builds at the 500 ms delay (GUI build with deep modes only), before
    PRIMASK is read, inside the masked window and during LPM_enter. The unguarded LPM_enter of the other builds consumes
    none. A tick sets the wake-up pin level and may post an event or receive an AT
    command. While the mask is set the interrupt is held pending and takes effect when
    the mask is lifted; LPM_enter is taken to leave the mask as it found it. An
    exhausted tick sequence means nothing happens any more. */
module Idle {
  import opened Lpm

  /** What the IDLE task can observe: the interrupt mask (PRIMASK and FAULTMASK, set
      and cleared together), whether some queue holds an event, whether an AT command
      is pending, the wake-up pin level, and interrupts held back by the mask. */
  datatype Cpu = Cpu(
    masked: bool,
    evtInQ: bool,
    atPending: bool,
    pinHigh: bool,
    heldEvt: bool,
    heldAt: bool)
  {
    /** Interrupts are only held back while the mask is set. */
    predicate Consistent()
    {
      !masked ==> !heldEvt && !heldAt
    }

    /** Work for the other tasks, visible now or as soon as the mask is lifted. */
    predicate Work()
    {
      evtInQ || atPending || heldEvt || heldAt
    }
  }

  /** What the rest of the system does between two statements of the IDLE task. */
  datatype Tick = Tick(pinHigh: bool, pushesEvt: bool, receivesAt: bool)

  /** One tick. An unmasked interrupt posts its work at once (together with anything
      held back); a masked one is held. The pin follows the tick either way. */
  function Advance(c: Cpu, t: Tick): (d: Cpu)
    ensures d.masked == c.masked && d.pinHigh == t.pinHigh
    ensures c.masked ==> d.evtInQ == c.evtInQ && d.atPending == c.atPending
    ensures !c.masked && c.Consistent() ==>
      (d.evtInQ <==> c.evtInQ || t.pushesEvt) && (d.atPending <==> c.atPending || t.receivesAt)
    ensures c.Consistent() ==> d.Consistent()
    ensures d.Work() <==> c.Work() || t.pushesEvt || t.receivesAt
  {
    if c.masked then
      c.(pinHigh := t.pinHigh, heldEvt := c.heldEvt || t.pushesEvt, heldAt := c.heldAt || t.receivesAt)
    else
      c.(pinHigh := t.pinHigh,
         evtInQ := c.evtInQ || c.heldEvt || t.pushesEvt,
         atPending := c.atPending || c.heldAt || t.receivesAt,
         heldEvt := false, heldAt := false)
  }

  /** __enable_fault_irq and __enable_irq: held interrupts run and post their work. */
  function Unmask(c: Cpu): (d: Cpu)
    ensures !d.masked && d.Consistent()
    ensures d.pinHigh == c.pinHigh
    ensures d.Work() <==> c.Work()
    ensures d.evtInQ <==> c.evtInQ || c.heldEvt
    ensures d.atPending <==> c.atPending || c.heldAt
  {
    c.(masked := false, evtInQ := c.evtInQ || c.heldEvt, atPending := c.atPending || c.heldAt,
       heldEvt := false, heldAt := false)
  }

  /** The epilogue `if (!prim) { enable }`: interrupts are enabled again only if they
      were enabled when the mask was saved. */
  function Restore(c: Cpu, prim: bool): (d: Cpu)
    requires c.masked
    ensures d.masked == prim
    ensures d.pinHigh == c.pinHigh && (d.Work() <==> c.Work())
    ensures c.Consistent() ==> d.Consistent()
  {
    if prim then c else Unmask(c)
  }

  /** The state after the next tick, and the ticks left. */
  datatype Moment = Moment(cpu: Cpu, rest: seq<Tick>)

  function Next(c: Cpu, env: seq<Tick>): (m: Moment)
    ensures m.cpu.masked == c.masked
    ensures |env| == 0 ==> m == Moment(c, [])
    ensures |env| > 0 ==> m == Moment(Advance(c, env[0]), env[1..])
  {
    if |env| == 0 then Moment(c, []) else Moment(Advance(c, env[0]), env[1..])
  }

  /** Some tick among `ticks` posts an event or receives an AT command. */
  predicate PostsWork(ticks: seq<Tick>)
  {
    |ticks| > 0 && (ticks[0].pushesEvt || ticks[0].receivesAt || PostsWork(ticks[1..]))
  }

  /** Going from `c` with `env` to come to `d` with `rest` to come consumed a prefix
      of `env`, and lost no work and invented none: there is work at the end exactly
      when there was work at the start or a consumed tick posted some. */
  predicate Accounts(c: Cpu, env: seq<Tick>, d: Cpu, rest: seq<Tick>)
  {
    && |rest| <= |env|
    && rest == env[|env| - |rest|..]
    && (d.Work() <==> c.Work() || PostsWork(env[..|env| - |rest|]))
  }

  /** A step that consumes no tick and keeps the work accounts for it. */
  lemma AccountsStay(c: Cpu, d: Cpu, env: seq<Tick>)
    requires d.Work() == c.Work()
    ensures Accounts(c, env, d, env)
  {
    assert env[|env| - |env|..] == env;
  }

  /** The next tick accounts for its work. */
  lemma AccountsNext(c: Cpu, env: seq<Tick>)
    ensures Accounts(c, env, Next(c, env).cpu, Next(c, env).rest)
  {
    if |env| > 0 {
      assert env[..1] == [env[0]];
      assert env[1..] == env[|env| - (|env| - 1)..];
    } else {
      assert env[..0] == [];
    }
  }

  /** Consecutive steps that each account for their work account for it together. */
  lemma AccountsChain(c: Cpu, env: seq<Tick>, d: Cpu, mid: seq<Tick>, e: Cpu, rest: seq<Tick>)
    requires Accounts(c, env, d, mid) && Accounts(d, mid, e, rest)
    ensures Accounts(c, env, e, rest)
  {
    var k1 := |env| - |mid|;
    var k2 := |mid| - |rest|;
    assert rest == env[k1 + k2..];
    assert env[..k1 + k2] == env[..k1] + mid[..k2];
    PostsWorkAppend(env[..k1], mid[..k2]);
  }

  lemma {:induction false} PostsWorkAppend(a: seq<Tick>, b: seq<Tick>)
    ensures PostsWork(a + b) <==> PostsWork(a) || PostsWork(b)
    decreases |a|
  {
    if |a| == 0 {
      assert a + b == b;
    } else {
      assert (a + b)[0] == a[0];
      assert (a + b)[1..] == a[1..] + b;
      PostsWorkAppend(a[1..], b);
    }
  }

  /** How the wake-up pin loop ends: the pin reads low, work shows up while it is
      high, or it stays high with nothing left to happen, so the loop spins for ever. */
  datatype PollEnd = PinLow | WorkSeen | Spinning

  datatype Poll = Poll(end: PollEnd, cpu: Cpu, rest: seq<Tick>)

  /** The pin is high at every reading the loop can make. */
  predicate AllHigh(c: Cpu, env: seq<Tick>)
  {
    (|env| == 0 ==> c.pinHigh) && forall i :: 0 <= i < |env| ==> env[i].pinHigh
  }

  /** The loop `while (pin is set) { if (work) return; }`. Each iteration reads the
      pin after a tick; with `checkWork` (the bare-metal build) it then returns when
      an event is queued or an AT command is pending. */
  function PollPin(c: Cpu, env: seq<Tick>, checkWork: bool): (p: Poll)
    ensures p.cpu.masked == c.masked
    ensures |p.rest| <= |env|
    ensures p.end == PinLow ==> !p.cpu.pinHigh
    ensures p.end == WorkSeen ==> checkWork && p.cpu.pinHigh && (p.cpu.evtInQ || p.cpu.atPending)
    ensures p.end == Spinning ==>
      p.rest == [] && p.cpu.pinHigh && !(checkWork && (p.cpu.evtInQ || p.cpu.atPending))
    decreases |env|
  {
    var m := Next(c, env);
    var d := m.cpu;
    if !d.pinHigh then Poll(PinLow, d, m.rest)
    else if checkWork && (d.evtInQ || d.atPending) then Poll(WorkSeen, d, m.rest)
    else if |env| == 0 then Poll(Spinning, d, [])
    else PollPin(d, m.rest, checkWork)
  }

  /** The pin loop loses no work: what is queued, pending or held stays so. */
  lemma {:induction false} PollPinKeepsWork(c: Cpu, env: seq<Tick>, checkWork: bool)
    ensures var p := PollPin(c, env, checkWork);
      && (c.Consistent() ==> p.cpu.Consistent())
      && (c.Work() ==> p.cpu.Work())
      && (c.evtInQ || c.atPending ==> p.cpu.evtInQ || p.cpu.atPending)
    decreases |env|
  {
    var m := Next(c, env);
    if m.cpu.pinHigh && !(checkWork && (m.cpu.evtInQ || m.cpu.atPending)) && |env| > 0 {
      PollPinKeepsWork(m.cpu, m.rest, checkWork);
    }
  }

  /** The loop consumes ticks from the front: what it leaves is a suffix. */
  lemma {:induction false} PollPinLeavesSuffix(c: Cpu, env: seq<Tick>, checkWork: bool)
    ensures var p := PollPin(c, env, checkWork);
      p.rest == env[|env| - |p.rest|..]
    decreases |env|
  {
    var m := Next(c, env);
    if m.cpu.pinHigh && !(checkWork && (m.cpu.evtInQ || m.cpu.atPending)) && |env| > 0 {
      PollPinLeavesSuffix(m.cpu, m.rest, checkWork);
      var p := PollPin(m.cpu, m.rest, checkWork);
      assert env[1..][|env| - 1 - |p.rest|..] == env[|env| - |p.rest|..];
    }
  }

  /** While every reading is high the loop never reports the pin low. */
  lemma {:induction false} PollPinHoldsWhileHigh(c: Cpu, env: seq<Tick>, checkWork: bool)
    requires AllHigh(c, env)
    ensures PollPin(c, env, checkWork).end != PinLow
    decreases |env|
  {
    var m := Next(c, env);
    if m.cpu.pinHigh && !(checkWork && (m.cpu.evtInQ || m.cpu.atPending)) && |env| > 0 {
      assert forall i :: 0 <= i < |m.rest| ==> m.rest[i] == env[i + 1];
      PollPinHoldsWhileHigh(m.cpu, m.rest, checkWork);
    }
  }

  /** The pin loop loses no work and invents none: the work it ends with is the work
      it started with plus what the interrupts it let run posted. */
  lemma {:induction false} PollPinAccounts(c: Cpu, env: seq<Tick>, checkWork: bool)
    ensures var p := PollPin(c, env, checkWork);
      Accounts(c, env, p.cpu, p.rest)
    decreases |env|
  {
    var m := Next(c, env);
    AccountsNext(c, env);
    if m.cpu.pinHigh && !(checkWork && (m.cpu.evtInQ || m.cpu.atPending)) && |env| > 0 {
      PollPinAccounts(m.cpu, m.rest, checkWork);
      var p := PollPin(m.cpu, m.rest, checkWork);
      assert PollPin(c, env, checkWork) == p;
      AccountsChain(c, env, m.cpu, m.rest, p.cpu, p.rest);
    } else {
      var p := PollPin(c, env, checkWork);
      assert p.cpu == m.cpu && p.rest == m.rest;
    }
  }

  /** With nothing left to happen the loop reads the pin once. */
  lemma PollPinQuiet(c: Cpu, checkWork: bool)
    ensures PollPin(c, [], checkWork) ==
      if !c.pinHigh then Poll(PinLow, c, [])
      else if checkWork && (c.evtInQ || c.atPending) then Poll(WorkSeen, c, [])
      else Poll(Spinning, c, [])
  {
  }

  /** What the IDLE task does that the rest of the system could notice. */
  datatype Act =
    | Delay                       // HAL_Delay(500) after the pin went low
    | MaskIrq(prim: bool)         // PRIMASK saved as `prim`, then both masks set
    | CheckWork(found: bool)      // the re-check of the queues (and AT commands)
    | LpmEnter(masked: bool, evtInQ: bool, atPending: bool)  // LPM_enter, and the state it saw
    | RestoreIrq(enabled: bool)   // the epilogue: interrupts re-enabled or left masked

  datatype Outcome = Aborted | EnteredLpm | Polling

  /** One pass of the IDLE task: how it ended, the state and ticks after it, what it did. */
  datatype Pass = Pass(outcome: Outcome, cpu: Cpu, rest: seq<Tick>, trace: seq<Act>)

  /** The masked window of a bare-metal build: save PRIMASK, mask, re-check the queues
      (and, with `withAt`, the AT manager), then either give up or call LPM_enter, and
      finally restore the saved mask. An interrupt may run before PRIMASK is read; one
      inside the window is held, as is the interrupt that ends the sleep. */
  function Guarded(c: Cpu, env: seq<Tick>, withAt: bool): (r: Pass)
    ensures r.cpu.masked == c.masked
    ensures c.Consistent() ==> r.cpu.Consistent()
    ensures c.Work() ==> r.cpu.Work()
    ensures r.outcome != Polling
  {
    var m1 := Next(c, env);
    var prim := m1.cpu.masked;
    var m2 := Next(m1.cpu.(masked := true), m1.rest);
    var d := m2.cpu;
    if d.evtInQ || (withAt && d.atPending) then
      Pass(Aborted, Restore(d, prim), m2.rest, [MaskIrq(prim), CheckWork(true), RestoreIrq(!prim)])
    else
      var m3 := Next(d, m2.rest);
      Pass(EnteredLpm, Restore(m3.cpu, prim), m3.rest,
           [MaskIrq(prim), CheckWork(false), LpmEnter(d.masked, d.evtInQ, d.atPending), RestoreIrq(!prim)])
  }

  /** One more tick keeps the accounts. */
  lemma AccountsThenNext(c: Cpu, env: seq<Tick>, d: Cpu, rest: seq<Tick>)
    requires Accounts(c, env, d, rest)
    ensures Accounts(c, env, Next(d, rest).cpu, Next(d, rest).rest)
  {
    AccountsNext(d, rest);
    AccountsChain(c, env, d, rest, Next(d, rest).cpu, Next(d, rest).rest);
  }

  /** The interrupt that ends the sleep, then the restored mask, keep the accounts. */
  lemma AccountsSleep(c: Cpu, env: seq<Tick>, d: Cpu, rest: seq<Tick>, prim: bool)
    requires d.masked && Accounts(c, env, d, rest)
    ensures Accounts(c, env, Restore(Next(d, rest).cpu, prim), Next(d, rest).rest)
  {
    AccountsThenNext(c, env, d, rest);
  }

  /** LPM_enter with no check and no masking, as the builds on another scheduler do. */
  function Unguarded(c: Cpu, env: seq<Tick>): (r: Pass)
    ensures r.outcome == EnteredLpm && r.cpu == c && r.rest == env
  {
    Pass(EnteredLpm, c, env, [LpmEnter(c.masked, c.evtInQ, c.atPending)])
  }

  /** The bare-metal GUI build with a deep mode allowed: wait for the wake-up pin
      to go low, returning early when work shows up; then wait 500 ms and take the
      masked decision, AT commands included. */
  function PinThenGuarded(c: Cpu, env: seq<Tick>): (r: Pass)
    ensures r.cpu.masked == c.masked
    ensures c.Consistent() ==> r.cpu.Consistent()
    ensures c.Work() ==> r.cpu.Work()
    ensures r.outcome == Polling ==> r.rest == []
  {
    var p := PollPin(c, env, true);
    PollPinKeepsWork(c, env, true);
    match p.end
    case WorkSeen => Pass(Aborted, p.cpu, p.rest, [])
    case Spinning => Pass(Polling, p.cpu, p.rest, [])
    case PinLow =>
      var m := Next(p.cpu, p.rest);
      var g := Guarded(m.cpu, m.rest, true);
      g.(trace := [Delay] + g.trace)
  }

  /** The GUI build on another scheduler with a deep mode allowed: wait for the pin
      to go low, without looking at the queues, then call LPM_enter. */
  function PinThenUnguarded(c: Cpu, env: seq<Tick>): (r: Pass)
    ensures r.cpu.masked == c.masked
    ensures c.Consistent() ==> r.cpu.Consistent()
    ensures c.Work() ==> r.cpu.Work()
    ensures r.outcome != Aborted
    ensures r.outcome == Polling ==> r.rest == []
  {
    var p := PollPin(c, env, false);
    PollPinKeepsWork(c, env, false);
    if p.end == Spinning then Pass(Polling, p.cpu, p.rest, [])
    else Unguarded(p.cpu, p.rest)
  }

  /** One call of IDLE_task in a build, with the LPM configuration's allowed-mode
      bitmap, from state `c` with the ticks `env` to come. */
  function IdlePass(enc: ModeEncoding, build: Build, bitmap: bv32, c: Cpu, env: seq<Tick>): (r: Pass)
    requires enc.Valid()
    ensures r.cpu.masked == c.masked
    ensures c.Consistent() ==> r.cpu.Consistent()
    ensures c.Work() ==> r.cpu.Work()
    ensures r.outcome == Polling ==> build.app == Gui && AllowsDeep(enc, bitmap) && r.rest == []
    ensures r.outcome == Aborted ==> build.baremetal
  {
    match build.app
    case Gui =>
      if AllowsDeep(enc, bitmap) then
        if build.baremetal then PinThenGuarded(c, env) else PinThenUnguarded(c, env)
      else if build.baremetal then Guarded(c, env, true)
      else Unguarded(c, env)
    case Standalone =>
      if build.baremetal then Guarded(c, env, false) else Unguarded(c, env)
  }

  // ---------------------------------------------------------------------------
  // Work posted during a pass

  /** The masked window loses no work and invents none, counting what every
      interrupt it let run posted: before PRIMASK is read, inside the window (held and
      delivered when the mask is lifted) and while LPM_enter runs. */
  lemma GuardedAccounts(c: Cpu, env: seq<Tick>, withAt: bool)
    ensures var r := Guarded(c, env, withAt);
      Accounts(c, env, r.cpu, r.rest)
  {
    var m1 := Next(c, env);
    var m2 := Next(m1.cpu.(masked := true), m1.rest);
    var d := m2.cpu;
    var r := Guarded(c, env, withAt);
    AccountsToCheck(c, env);
    AccountsAfterCheck(c, env, d, m2.rest, m1.cpu.masked);
    if d.evtInQ || (withAt && d.atPending) {
      assert r.cpu == Restore(d, m1.cpu.masked) && r.rest == m2.rest;
    } else {
      assert r.cpu == Restore(Next(d, m2.rest).cpu, m1.cpu.masked) && r.rest == Next(d, m2.rest).rest;
    }
  }

  /** The two interrupt points up to the masked re-check, before PRIMASK is read and
      inside the window, account for their work. */
  lemma AccountsToCheck(c: Cpu, env: seq<Tick>)
    ensures var m1 := Next(c, env);
      var m2 := Next(m1.cpu.(masked := true), m1.rest);
      Accounts(c, env, m2.cpu, m2.rest)
  {
    var m1 := Next(c, env);
    var c1 := m1.cpu.(masked := true);
    AccountsNext(c, env);
    assert Accounts(c, env, c1, m1.rest);
    AccountsThenNext(c, env, c1, m1.rest);
  }

  /** Either way the window ends, giving up or sleeping, it keeps the accounts. */
  lemma AccountsAfterCheck(c: Cpu, env: seq<Tick>, d: Cpu, rest: seq<Tick>, prim: bool)
    requires d.masked && Accounts(c, env, d, rest)
    ensures Accounts(c, env, Restore(d, prim), rest)
    ensures Accounts(c, env, Restore(Next(d, rest).cpu, prim), Next(d, rest).rest)
  {
    AccountsSleep(c, env, d, rest, prim);
  }

  lemma UnguardedAccounts(c: Cpu, env: seq<Tick>)
    ensures var r := Unguarded(c, env);
      Accounts(c, env, r.cpu, r.rest)
  {
    AccountsStay(c, c, env);
  }

  /** The bare-metal GUI path with deep modes allowed accounts for the work of the pin
      loop, the 500 ms delay and the window. */
  lemma PinThenGuardedAccounts(c: Cpu, env: seq<Tick>)
    ensures var r := PinThenGuarded(c, env);
      Accounts(c, env, r.cpu, r.rest)
  {
    var p := PollPin(c, env, true);
    PollPinAccounts(c, env, true);
    if p.end == PinLow {
      var m := Next(p.cpu, p.rest);
      var g := Guarded(m.cpu, m.rest, true);
      AccountsThenNext(c, env, p.cpu, p.rest);
      GuardedAccounts(m.cpu, m.rest, true);
      AccountsChain(c, env, m.cpu, m.rest, g.cpu, g.rest);
      assert PinThenGuarded(c, env).cpu == g.cpu && PinThenGuarded(c, env).rest == g.rest;
    }
  }

  lemma PinThenUnguardedAccounts(c: Cpu, env: seq<Tick>)
    ensures var r := PinThenUnguarded(c, env);
      Accounts(c, env, r.cpu, r.rest)
  {
    PollPinAccounts(c, env, false);
  }

  /** A pass of the IDLE task, in every build, loses no work and invents none: it
      consumes interrupts only from the front, and it ends with work exactly when it
      started with some or an interrupt it let run posted some. */
  lemma IdlePassAccounts(enc: ModeEncoding, build: Build, bitmap: bv32, c: Cpu, env: seq<Tick>)
    requires enc.Valid()
    ensures var r := IdlePass(enc, build, bitmap, c, env);
      Accounts(c, env, r.cpu, r.rest)
  {
    var withAt := build.app == Gui;
    if !build.baremetal {
      if withAt && AllowsDeep(enc, bitmap) {
        assert IdlePass(enc, build, bitmap, c, env) == PinThenUnguarded(c, env);
        PinThenUnguardedAccounts(c, env);
      } else {
        assert IdlePass(enc, build, bitmap, c, env) == Unguarded(c, env);
        UnguardedAccounts(c, env);
      }
    } else if withAt && AllowsDeep(enc, bitmap) {
      assert IdlePass(enc, build, bitmap, c, env) == PinThenGuarded(c, env);
      PinThenGuardedAccounts(c, env);
    } else {
      assert IdlePass(enc, build, bitmap, c, env) == Guarded(c, env, withAt);
      GuardedAccounts(c, env, withAt);
    }
  }
}

=== FILE: idle_properties.dfy ===
/** What the IDLE task guarantees, over every build, every allowed-mode bitmap, every
    entry state and every sequence of interrupts. Each property is proved first for
    the building block that carries it and then for IdlePass, build by build. */
module IdleProperties {
  import opened Lpm
  import opened Idle

  /** Work the bare-metal re-check of this build looks at. */
  predicate Visible(build: Build, c: Cpu)
  {
    c.evtInQ || (build.app == Gui && c.atPending)
  }

  /** The builds whose pass starts with the wake-up pin loop. */
  predicate PollsPin(enc: ModeEncoding, build: Build, bitmap: bv32)
    requires enc.Valid()
  {
    build.app == Gui && AllowsDeep(enc, bitmap)
  }

  /** The pass called LPM_enter. */
  predicate Sleeps(trace: seq<Act>)
  {
    exists i :: 0 <= i < |trace| && trace[i].LpmEnter?
  }

  /** Every call of LPM_enter happens masked, with no queued event and, when the
      re-check covers them, no pending AT command. */
  predicate SafeSleeps(trace: seq<Act>, withAt: bool)
  {
    forall i :: 0 <= i < |trace| && trace[i].LpmEnter? ==>
      trace[i].masked && !trace[i].evtInQ && (withAt ==> !trace[i].atPending)
  }

  /** A pass that does anything opens the masked window with PRIMASK saved as found
      (after the 500 ms delay, if there is one) and closes it by re-enabling interrupts
      exactly when they were enabled on entry. */
  predicate Bracketed(trace: seq<Act>, masked: bool)
  {
    |trace| > 0 ==>
      && |trace| >= 3
      && trace[|trace| - 1] == RestoreIrq(!masked)
      && (trace[0] == MaskIrq(masked) || (trace[0] == Delay && trace[1] == MaskIrq(masked)))
  }

  /** All the pass did was call LPM_enter, under the mask it found. */
  predicate SleepsAsFound(trace: seq<Act>, masked: bool)
  {
    forall i :: 0 <= i < |trace| ==> trace[i].LpmEnter? && trace[i].masked == masked
  }

  // ---------------------------------------------------------------------------
  // The masked window

  lemma GuardedTrace(c: Cpu, env: seq<Tick>, withAt: bool)
    ensures var r := Guarded(c, env, withAt);
      && |r.trace| > 0 && r.trace[0] == MaskIrq(c.masked)
      && Bracketed(r.trace, c.masked)
      && SafeSleeps(r.trace, withAt)
      && (r.outcome == EnteredLpm <==> Sleeps(r.trace))
  {
    var r := Guarded(c, env, withAt);
    if r.outcome == EnteredLpm {
      assert r.trace[2].LpmEnter?;
    }
  }

  /** Work visible when the window opens is never slept on. */
  lemma GuardedAbortsOnWork(c: Cpu, env: seq<Tick>, withAt: bool)
    requires c.evtInQ || (withAt && c.atPending)
    ensures Guarded(c, env, withAt).outcome == Aborted
  {
  }

  /** An interrupt that runs just before PRIMASK is read posts its event in time for
      the re-check. */
  lemma GuardedSeesEarlyInterrupt(c: Cpu, t: Tick, env: seq<Tick>, withAt: bool)
    requires !c.masked && c.Consistent() && t.pushesEvt
    ensures var r := Guarded(c, [t] + env, withAt);
      r.outcome == Aborted && r.cpu.evtInQ && !r.cpu.masked
  {
    assert ([t] + env)[0] == t;
  }

  /** The tick inside the window cannot change the decision, and an event it posts is
      delivered once interrupts are enabled again. */
  lemma GuardedWindow(c: Cpu, t0: Tick, t1: Tick, t1': Tick, env: seq<Tick>, withAt: bool)
    ensures Guarded(c, [t0, t1] + env, withAt).outcome == Guarded(c, [t0, t1'] + env, withAt).outcome
    ensures !c.masked && c.Consistent() && t1.pushesEvt ==> Guarded(c, [t0, t1] + env, withAt).cpu.evtInQ
  {
    assert ([t0, t1] + env)[0] == t0 && ([t0, t1] + env)[1..] == [t1] + env;
    assert ([t0, t1'] + env)[0] == t0 && ([t0, t1'] + env)[1..] == [t1'] + env;
    assert ([t1] + env)[0] == t1 && ([t1] + env)[1..] == env;
    assert ([t1'] + env)[0] == t1' && ([t1'] + env)[1..] == env;
  }

  lemma GuardedQuiet(c: Cpu, withAt: bool)
    ensures var r := Guarded(c, [], withAt);
      (r.outcome == EnteredLpm <==> !(c.evtInQ || (withAt && c.atPending)))
  {
  }

  // ---------------------------------------------------------------------------
  // The wake-up pin loop

  /** The 500 ms delay in front of the masked window adds no call of LPM_enter and
      keeps the window's bracket. */
  lemma DelayPrefix(t: seq<Act>, masked: bool, withAt: bool)
    requires |t| > 0 && t[0] == MaskIrq(masked) && Bracketed(t, masked)
    ensures Bracketed([Delay] + t, masked)
    ensures SafeSleeps(t, withAt) ==> SafeSleeps([Delay] + t, withAt)
    ensures Sleeps([Delay] + t) <==> Sleeps(t)
  {
    var s := [Delay] + t;
    assert s[0] == Delay && s[1] == t[0] && s[|s| - 1] == t[|t| - 1];
    assert forall i :: 1 <= i < |s| ==> s[i] == t[i - 1];
    if Sleeps(t) {
      var i :| 0 <= i < |t| && t[i].LpmEnter?;
      assert s[i + 1].LpmEnter?;
    }
  }

  lemma PinGuardedTrace(c: Cpu, env: seq<Tick>)
    ensures var r := PinThenGuarded(c, env);
      && Bracketed(r.trace, c.masked)
      && SafeSleeps(r.trace, true)
      && (r.outcome == EnteredLpm <==> Sleeps(r.trace))
  {
    var p := PollPin(c, env, true);
    if p.end == PinLow {
      var m := Next(p.cpu, p.rest);
      var g := Guarded(m.cpu, m.rest, true);
      assert PinThenGuarded(c, env) == g.(trace := [Delay] + g.trace);
      GuardedTrace(m.cpu, m.rest, true);
      DelayPrefix(g.trace, c.masked, true);
    }
  }

  lemma PinUnguardedTrace(c: Cpu, env: seq<Tick>)
    ensures var r := PinThenUnguarded(c, env);
      && SleepsAsFound(r.trace, c.masked)
      && (r.outcome == EnteredLpm <==> Sleeps(r.trace))
  {
    var r := PinThenUnguarded(c, env);
    if r.outcome == EnteredLpm {
      assert r.trace[0].LpmEnter?;
    }
  }

  lemma PinGuardedAbortsOnWork(c: Cpu, env: seq<Tick>)
    requires c.evtInQ || c.atPending
    ensures PinThenGuarded(c, env).outcome == Aborted
  {
    var p := PollPin(c, env, true);
    PollPinKeepsWork(c, env, true);
    if p.end == PinLow {
      var m := Next(p.cpu, p.rest);
      GuardedAbortsOnWork(m.cpu, m.rest, true);
    }
  }

  lemma PinGuardedQuiet(c: Cpu)
    ensures var r := PinThenGuarded(c, []);
      && (r.outcome == EnteredLpm <==> !c.pinHigh && !(c.evtInQ || c.atPending))
      && (r.outcome == Polling <==> c.pinHigh && !(c.evtInQ || c.atPending))
  {
    PollPinQuiet(c, true);
    if !c.pinHigh {
      GuardedQuiet(c, true);
    }
  }

  /** The pin loop only lets the pass go on when it reads the pin low. */
  lemma PinLoopHoldsWhileHigh(c: Cpu, env: seq<Tick>)
    requires AllHigh(c, env)
    ensures PinThenGuarded(c, env).outcome != EnteredLpm
    ensures PinThenUnguarded(c, env).outcome != EnteredLpm
  {
    PollPinHoldsWhileHigh(c, env, true);
    PollPinHoldsWhileHigh(c, env, false);
  }

  lemma PinUnguardedQuiet(c: Cpu)
    ensures var r := PinThenUnguarded(c, []);
      && (r.outcome == EnteredLpm <==> !c.pinHigh)
      && (r.outcome == Polling <==> c.pinHigh)
  {
    PollPinQuiet(c, false);
  }

  // ---------------------------------------------------------------------------
  // One pass of the IDLE task, every build

  /** In a bare-metal build the pass masks and restores interrupts around its
      decision, and calls LPM_enter only masked and with no visible work. */
  lemma BareMetalSleepIsGuarded(enc: ModeEncoding, build: Build, bitmap: bv32, c: Cpu, env: seq<Tick>)
    requires enc.Valid()
    requires build.baremetal
    ensures var r := IdlePass(enc, build, bitmap, c, env);
      && Bracketed(r.trace, c.masked)
      && SafeSleeps(r.trace, build.app == Gui)
      && (r.outcome == EnteredLpm <==> Sleeps(r.trace))
  {
    if PollsPin(enc, build, bitmap) {
      PinGuardedTrace(c, env);
    } else {
      GuardedTrace(c, env, build.app == Gui);
    }
  }

  /** On another scheduler the pass never touches the mask and calls LPM_enter as it
      finds it, whatever is queued. */
  lemma OtherSchedulerSleepIsUnguarded(enc: ModeEncoding, build: Build, bitmap: bv32, c: Cpu, env: seq<Tick>)
    requires enc.Valid()
    requires !build.baremetal
    ensures var r := IdlePass(enc, build, bitmap, c, env);
      && r.outcome != Aborted
      && SleepsAsFound(r.trace, c.masked)
      && (r.outcome == EnteredLpm <==> Sleeps(r.trace))
  {
    if PollsPin(enc, build, bitmap) {
      PinUnguardedTrace(c, env);
    } else {
      var r := Unguarded(c, env);
      assert r.trace[0].LpmEnter?;
    }
  }

  /** A bare-metal pass that starts with visible work never sleeps. */
  lemma VisibleWorkAtEntryBlocksSleep(enc: ModeEncoding, build: Build, bitmap: bv32, c: Cpu, env: seq<Tick>)
    requires enc.Valid()
    requires build.baremetal && Visible(build, c)
    ensures IdlePass(enc, build, bitmap, c, env).outcome == Aborted
  {
    if PollsPin(enc, build, bitmap) {
      PinGuardedAbortsOnWork(c, env);
    } else {
      GuardedAbortsOnWork(c, env, build.app == Gui);
    }
  }

  /** In the bare-metal builds without the pin loop, an event posted by an interrupt
      just before PRIMASK is read is seen by the masked re-check. */
  lemma InterruptBeforeCheckBlocksSleep(enc: ModeEncoding, build: Build, bitmap: bv32, c: Cpu, t: Tick, env: seq<Tick>)
    requires enc.Valid()
    requires build.baremetal && !PollsPin(enc, build, bitmap)
    requires !c.masked && c.Consistent() && t.pushesEvt
    ensures var r := IdlePass(enc, build, bitmap, c, [t] + env);
      r.outcome == Aborted && r.cpu.evtInQ && !r.cpu.masked
  {
    GuardedSeesEarlyInterrupt(c, t, env, build.app == Gui);
  }

  /** In the bare-metal builds without the pin loop, no interrupt inside the masked
      window can change the decision, and an event it posts is not lost. */
  lemma MaskedWindowCannotChangeDecision(enc: ModeEncoding, build: Build, bitmap: bv32, c: Cpu,
                                         t0: Tick, t1: Tick, t1': Tick, env: seq<Tick>)
    requires enc.Valid()
    requires build.baremetal && !PollsPin(enc, build, bitmap)
    ensures IdlePass(enc, build, bitmap, c, [t0, t1] + env).outcome ==
            IdlePass(enc, build, bitmap, c, [t0, t1'] + env).outcome
    ensures !c.masked && c.Consistent() && t1.pushesEvt ==>
      IdlePass(enc, build, bitmap, c, [t0, t1] + env).cpu.evtInQ
  {
    GuardedWindow(c, t0, t1, t1', env, build.app == Gui);
  }

  /** While the wake-up pin reads high the GUI build never enters low power. */
  lemma PinHighNeverSleeps(enc: ModeEncoding, build: Build, bitmap: bv32, c: Cpu, env: seq<Tick>)
    requires enc.Valid()
    requires PollsPin(enc, build, bitmap) && AllHigh(c, env)
    ensures IdlePass(enc, build, bitmap, c, env).outcome != EnteredLpm
  {
    PinLoopHoldsWhileHigh(c, env);
  }

  /** In the bare-metal GUI build the pin loop returns at the first reading that finds
      work: no delay, no masking, one tick consumed. */
  lemma WorkWhilePinHighReturnsAtOnce(enc: ModeEncoding, build: Build, bitmap: bv32, c: Cpu, t: Tick, env: seq<Tick>)
    requires enc.Valid()
    requires build.baremetal && PollsPin(enc, build, bitmap)
    requires !c.masked && c.Consistent()
    requires t.pinHigh && (c.evtInQ || c.atPending || t.pushesEvt || t.receivesAt)
    ensures var r := IdlePass(enc, build, bitmap, c, [t] + env);
      r.outcome == Aborted && r.rest == env && r.trace == []
  {
    assert ([t] + env)[0] == t && ([t] + env)[1..] == env;
  }

  /** When a pass may sleep if nothing happens while it runs: the pin is low when the
      build polls it, and a bare-metal build sees no work. */
  predicate Eligible(enc: ModeEncoding, build: Build, bitmap: bv32, c: Cpu)
    requires enc.Valid()
  {
    && (PollsPin(enc, build, bitmap) ==> !c.pinHigh)
    && (build.baremetal ==> !Visible(build, c))
  }

  /** With no interrupt during the pass, it sleeps exactly when it is eligible to, and
      the pin loop spins exactly when the pin is high and a bare-metal build has no
      work that would end the loop. */
  lemma QuietPassSleepsIffEligible(enc: ModeEncoding, build: Build, bitmap: bv32, c: Cpu)
    requires enc.Valid()
    ensures var r := IdlePass(enc, build, bitmap, c, []);
      && (r.outcome == EnteredLpm <==> Eligible(enc, build, bitmap, c))
      && (r.outcome == Polling <==>
            PollsPin(enc, build, bitmap) && c.pinHigh && !(build.baremetal && Visible(build, c)))
  {
    if PollsPin(enc, build, bitmap) {
      if build.baremetal {
        PinGuardedQuiet(c);
      } else {
        PinUnguardedQuiet(c);
      }
    } else if build.baremetal {
      GuardedQuiet(c, build.app == Gui);
    }
  }

  /** The bare-metal GUI build with a deep mode allowed: the pin goes low, the 500 ms
      delay passes quietly, and an AT command arrives inside the masked window. The
      task still sleeps; the command is handled once interrupts are enabled again. */
  lemma AtCommandInWindowScenario(enc: ModeEncoding, bitmap: bv32, shutdownEnabled: bool, assertChecks: bool)
    requires enc.Valid() && AllowsDeep(enc, bitmap)
    ensures var build := Build(Gui, true, shutdownEnabled, assertChecks);
      var quiet := Tick(false, false, false);
      var c := Cpu(false, false, false, true, false, false);
      var r := IdlePass(enc, build, bitmap, c, [quiet, quiet, quiet, Tick(false, false, true)]);
      && r.outcome == EnteredLpm
      && r.trace == [Delay, MaskIrq(false), CheckWork(false), LpmEnter(true, false, false), RestoreIrq(true)]
      && r.cpu.atPending && !r.cpu.masked
  {
    var quiet := Tick(false, false, false);
    var c := Cpu(false, false, false, true, false, false);
    var env := [quiet, quiet, quiet, Tick(false, false, true)];
    var p := PollPin(c, env, true);
    assert p == Poll(PinLow, c.(pinHigh := false), env[1..]);
    assert env[1..][1..][1..] == [Tick(false, false, true)];
  }

  /** A build on another scheduler: an event is queued, yet the IDLE task calls LPM_enter
      with interrupts enabled, because it does not re-check the queues. */
  lemma UnguardedSleepsWithWorkScenario(enc: ModeEncoding, bitmap: bv32, app: App, shutdownEnabled: bool, assertChecks: bool)
    requires enc.Valid() && !(app == Gui && AllowsDeep(enc, bitmap))
    ensures var build := Build(app, false, shutdownEnabled, assertChecks);
      var c := Cpu(false, true, false, false, false, false);
      IdlePass(enc, build, bitmap, c, []).trace == [LpmEnter(false, true, false)]
  {
  }

  /** The interrupt that ends the sleep of the standalone bare-metal build posts an
      event: it is held while the mask is set and queued once interrupts are back on. */
  lemma WakeEventSurvivesScenario(enc: ModeEncoding, bitmap: bv32, shutdownEnabled: bool, assertChecks: bool)
    requires enc.Valid()
    ensures var build := Build(Standalone, true, shutdownEnabled, assertChecks);
      var c := Cpu(false, false, false, false, false, false);
      var quiet := Tick(false, false, false);
      var r := IdlePass(enc, build, bitmap, c, [quiet, quiet, Tick(false, true, false)]);
      && r.outcome == EnteredLpm
      && r.cpu.evtInQ && !r.cpu.masked
      && r.rest == []
  {
  }
}

=== FILE: kns.dfy ===
/** Identifiers of the Kineis queue set and task registry that main.c relies on. The
    queue set and the scheduler themselves are not part of this model: their calls
    appear only as actions of the boot trace and as status codes supplied from outside. */
module Kns {

  /** KNS_status_t, the status every KNS_xxx call returns. */
  datatype Status =
    | Ok
    | Error
    | Disabled
    | Busy
    | Timeout
    | BadSetting
    | BadLen
    | TrErr
    | DlFrmErr
    | QFull
    | QEmpty
    | NvmAccessErr

  /** The four queues created at boot: application to MAC (downlink), MAC to
      application, infrastructure to MAC and service to MAC (uplink). */
  datatype Channel = App2Mac | Mac2App | Infra2Mac | Srvc2Mac

  /** The scheduler's named task slots. */
  datatype TaskId = MacTask | AppTask | IdleTask
}

=== FILE: lpm.dfy ===
/** Power-mode codes, build options and the allowed-mode bitmap shared by the boot
    sequencer and the IDLE task of the firmware's main.c. */
module Lpm {

  /** The five LOW_POWER_MODE_* codes of the low-power-mode controller. Their numeric
      values live outside this model: main.c only compares them with `>` and tests them
      as bits of the allowed-mode bitmap, so all that is assumed is a strict order.
      The bitmap's type is declared outside main.c; its width is assumed to be 32 bits,
      so the codes are also assumed to fit in 32 bits. */
  datatype ModeEncoding = ModeEncoding(none: nat, sleep: nat, stop: nat, standby: nat, shutdown: nat)
  {
    predicate Valid() {
      none < sleep < stop < standby < shutdown < 0x1_0000_0000
    }
  }

  /** Which application main.c is built with: USE_GUI_APP (AT commands over a console,
      the default when neither is defined) or USE_STDALONE_APP. Defining both is a
      compile error, so exactly one of them is chosen. */
  datatype App = Gui | Standalone

  /** Compile-time options that change the control flow of main.c:
      - `app`: the application variant;
      - `baremetal`: USE_BAREMETAL, the Kineis bare-metal scheduler;
      - `shutdownEnabled`: LPM_SHUTDOWN_ENABLED;
      - `assertChecks`: USE_FULL_ASSERT, under which `assert_param` evaluates its
        argument and stops the boot when it is false. */
  datatype Build = Build(app: App, baremetal: bool, shutdownEnabled: bool, assertChecks: bool)

  /** The deepest mode a build may persist: SHUTDOWN when it is enabled, STANDBY otherwise. */
  function Deepest(enc: ModeEncoding, build: Build): (d: nat)
    requires enc.Valid()
    ensures enc.standby <= d <= enc.shutdown
    ensures d == enc.shutdown <==> build.shutdownEnabled
    ensures !build.shutdownEnabled ==> d == enc.standby
  {
    if build.shutdownEnabled then enc.shutdown else enc.standby
  }

  /** The bitmap test of the IDLE task: does the LPM configuration allow STANDBY or
      SHUTDOWN, the two modes that power the core off? */
  function AllowsDeep(enc: ModeEncoding, bitmap: bv32): (b: bool)
    requires enc.Valid()
    ensures bitmap == 0 ==> !b
  {
    bitmap & (enc.standby as bv32 | enc.shutdown as bv32) != 0
  }
}
